=== FILE: README.md ===
# Photo date watermarking, modelled in Dafny

`watermark_tool.py` stamps each photo with the day it was taken. For every
image it reads the capture timestamp from the EXIF metadata and reformats it
as `YYYY年MM月DD日`. When the metadata has no usable timestamp, it uses today's
date instead. It draws the text twice:

- first as a black shadow two pixels down and right;
- then in the requested colour, at one of seven named anchor positions.
  The position is computed for the measured text box placed at the drawing
  origin. An anchored edge of that box keeps 20 pixels from the image border;
  on a centred axis the box splits the free space in two, by floor division.

The result is saved into an output directory. The command-line driver takes
one image or a directory. For a directory it collects the images with twelve
glob patterns: six extensions, each in lower and in upper case. It then writes
every result to `<dir>/<basename(dir)>_watermark/<file name>`.

The model keeps the tool's decisions and leaves the pixels to the host.
These are pure functions over the data the program computes with:

- anchor geometry;
- timestamp parsing and date formatting;
- choice of the EXIF tag;
- text fallback and font fallback;
- the two-command draw plan;
- POSIX `basename`/`dirname`/`join`;
- glob selection and ordering;
- output naming;
- the per-image loop.

The host services become parameters:

- image decoding and the decoded size;
- font loading;
- text measurement, and whether the font can render the text at all;
- colour lookup;
- creating a directory;
- saving;
- the current date;
- the directory listing.

Modules, one file each:

| module | file | contents |
|---|---|---|
| `Wrappers` | wrappers.dfy | `Option` |
| `Decimal` | decimal.dfy | fixed-width decimal fields (`%Y`, `%m`, …): reading and zero-padded writing |
| `PosixPath` | posix_path.dfy | `Basename`, `Dirname`, `Join` with `/` as separator |
| `Layout` | layout.dfy | the seven anchors and `WatermarkPosition`, plus an independent per-axis description |
| `ExifDate` | exif_date.dfy | the Gregorian calendar, `ParseTimestamp`, `FormatDate`, `GetExifDate` |
| `Render` | render.dfy | font fallback, text fallback, shadow and main draw commands, `AddWatermark` |
| `Batch` | batch.dfy | path validation, image discovery, output naming, `Plan`, `ProcessAll`, `Execute` |
| `Selection` | selection.dfy | what a directory run selects, and in which order |
| `BatchExamples` | batch_examples.dfy | the driver on concrete paths and file names |

The output directory is a child of the input directory, not a sibling.
`os.path.join(input_dir, ...)` places it inside the directory it was derived
from, so a directory run creates `photos/photos_watermark`. The model follows
the code.

The shadow colour is `'black' if color == 'white' else 'black'`, so it is
always black. A black watermark therefore gets an invisible black shadow.
`Render.ShadowColor` and `Render.BlackOnBlack` state this as the code does it.

The output directory is created twice, by two calls with different fates.
The call at line 147 is outside any `try`: when it fails, the run ends before
any image is touched. `Batch.Execute` models this with the host predicate
`makesDir`. The call at line 102 is inside the per-image `try`: when it fails,
only that image fails. `Render.AddWatermark` models this with the same
predicate.

## Model

| member | source | states |
|---|---|---|
| Layout.AnchorOf | watermark_tool.py:38-53 | a position string selects the anchor it names; any string naming no anchor selects bottom-right |
| Layout.AnchorNameRoundTrip | watermark_tool.py:116-118 | each of the seven accepted `--position` spellings selects its own anchor |
| Layout.AxisOrigin | watermark_tool.py:36-51 | on one axis, a start-aligned box sits one padding (20) from the start; an end-aligned box ends one padding before the end; a centred box splits the slack by floor division, leaving at most one pixel more after than before |
| Layout.WatermarkPosition | watermark_tool.py:34-53 | the seven-branch position table equals the independent per-axis description: x follows the anchor's horizontal alignment only, y its vertical one |
| Layout.UnknownPositionIsBottomRight | watermark_tool.py:52-53 | a position naming no anchor is placed exactly like `bottom-right` |
| Layout.AxisWithinMargins | watermark_tool.py:36-51 | on one axis, a text length that leaves room for both paddings puts the box at least one padding inside both ends |
| Layout.WithinMargins | watermark_tool.py:34-53 | when the text fits with both paddings, every position string keeps the whole measured box, placed at the computed origin, at least 20 pixels inside every edge |
| Layout.RightAnchorGoesNegative | watermark_tool.py:40-45 | nothing is clamped: a right-anchored box starts left of the image exactly when the text is wider than the image minus the padding |
| Decimal.ValueOfPadDigits | watermark_tool.py:22 | writing a number zero-padded to a width that holds it, then reading the digits back, gives the number |
| Decimal.PadDigitsOfValue | watermark_tool.py:22 | reading a digit field and writing it back zero-padded to the same width gives the field |
| Decimal.PadDigitsInjective | watermark_tool.py:22 | two numbers that fit a width have equal padded forms exactly when they are equal |
| ExifDate.DaysInMonth | watermark_tool.py:22 | February has 29 days exactly in Gregorian leap years and 28 otherwise; April, June, September and November have 30; the other months have 31 |
| ExifDate.ParseTimestamp | watermark_tool.py:22 | whatever the parser accepts is a real calendar moment, with year 1 to 9999 and time of day within 00:00:00 to 23:59:59 |
| ExifDate.FormatDate | watermark_tool.py:22 | the displayed date is 11 characters: 4 year digits, 年, 2 month digits, 月, 2 day digits, 日; when the fields fit, the digits read back as the date's own year, month and day |
| ExifDate.ParseFormatDecides | watermark_tool.py:22 | the rendering of a timestamp whose fields fit their widths parses back to that timestamp when it is valid, and is rejected when it is not |
| ExifDate.ParseFormatTimestamp | watermark_tool.py:22 | every valid timestamp's `%Y:%m:%d %H:%M:%S` rendering parses back to it |
| ExifDate.FormatParseTimestamp | watermark_tool.py:22 | every accepted string is the canonical rendering of what it parsed to |
| ExifDate.ParseTimestampIff | watermark_tool.py:22 | a string parses to `t` if and only if `t` is valid and the string is `t`'s rendering |
| ExifDate.FormatDateInjective | watermark_tool.py:22 | distinct valid dates are displayed differently |
| ExifDate.ReadTag | watermark_tool.py:21-22 | a tag yields a date exactly when it decodes and parses; the result is a display date; the rendering of any valid timestamp yields that timestamp's date |
| ExifDate.ChosenTag | watermark_tool.py:20-27 | DateTimeOriginal is consulted whenever present; DateTime only when it is absent; an unreadable container offers no tag |
| ExifDate.GetExifDate | watermark_tool.py:14-32 | an unreadable container, an image with neither tag, and an undecodable consulted tag all yield no date; a result is always an 11-character display date |
| ExifDate.ExifDateComplete | watermark_tool.py:19-27 | when the consulted tag holds a valid timestamp, the result is that timestamp's date with the time dropped |
| ExifDate.ExifDateSound | watermark_tool.py:19-27 | every returned date comes from a valid timestamp held in the consulted tag |
| ExifDate.OriginalWins | watermark_tool.py:20-22 | once DateTimeOriginal is present, only it decides the result, even when it fails to parse; DateTime is never consulted |
| ExifDate.ModifiedIsFallback | watermark_tool.py:24-27 | without DateTimeOriginal, DateTime is read by the same rule |
| ExifDate.ReformatExample | watermark_tool.py:22 | `2023:05:17 10:22:00` is displayed as `2023年05月17日` |
| ExifDate.LeapDayExample | watermark_tool.py:22 | `2024:02:29 00:00:00` is accepted |
| ExifDate.NonLeapDayExample | watermark_tool.py:22 | `2023:02:29 00:00:00` is rejected |
| ExifDate.April31Example | watermark_tool.py:22 | `2023:04:31 00:00:00` is rejected |
| ExifDate.RenderedExample2023 | watermark_tool.py:22 | the rendering of 2023-05-17 10:22:00 is `2023:05:17 10:22:00` |
| Render.FirstLoadable | watermark_tool.py:74-84 | the chosen candidate loads and every earlier candidate fails; with no choice, every candidate fails |
| Render.ResolveFont | watermark_tool.py:74-84 | a TrueType font is the first of the three fixed font files that loads, at the requested size; the built-in font is used exactly when none loads |
| Render.WatermarkText | watermark_tool.py:68-70 | a non-empty extracted date is drawn as is; a missing or empty one is replaced by today's date in the same format |
| Render.ShadowColor | watermark_tool.py:95 | the shadow colour is black whatever colour is requested |
| Render.DrawPlan | watermark_tool.py:95-99 | two commands with the same text and the same font: first the black shadow, 2 pixels right and down of the origin, then the main text at the origin in the requested colour |
| Render.AddWatermark | watermark_tool.py:55-109 | an image is written exactly when it decodes, the resolved font renders its text, the colour is known, the output's directory can be made and the output saved, and then with the watermark text; otherwise it fails as a whole |
| Render.WrittenPlan | watermark_tool.py:86-99 | a written image carries two commands: the black shadow at the anchor position plus 2 in both axes, then the main text in the requested colour at the anchor position of the text as measured in the resolved font; both are drawn in that same resolved font |
| Render.BlackOnBlack | watermark_tool.py:95-99 | a black watermark gets a black shadow at a different point |
| Render.NoMetadataUsesToday | watermark_tool.py:68-70 | an image without metadata, or with unreadable metadata, is stamped with today's date |
| PosixPath.LastSep | watermark_tool.py:156 | the index found holds a separator and no separator follows it, or there is no separator at all |
| PosixPath.RStripSeps | watermark_tool.py:131 | trailing separators are removed, and only those |
| PosixPath.Basename | watermark_tool.py:155-157 | the final component has no separator, ends the path, and is preceded by a separator or is the whole path |
| PosixPath.Dirname | watermark_tool.py:131 | the directory part is a prefix of the path; it is empty exactly when the path has no separator; it is the text before the last separator, minus its trailing separators, unless that text is all separators, in which case the head is kept through the last separator (`a/b/c` gives `a/b`, `/x` gives `/`) |
| PosixPath.Join | watermark_tool.py:155-157 | an absolute second part replaces the first; otherwise both parts are kept, and a separator is inserted between them exactly when the first part is non-empty and does not already end in one |
| PosixPath.JoinParts | watermark_tool.py:155-157 | a relative second part is appended: the result starts with the first part and ends with the second |
| PosixPath.BasenameOfJoin | watermark_tool.py:156-157 | joining a separator-free name onto any directory, then taking the final component, gives the name back |
| PosixPath.LastSepIs | watermark_tool.py:156 | the last separator is the one with no separator after it |
| PosixPath.DirnameOfJoin | watermark_tool.py:155-157 | joining a separator-free name onto a directory without trailing separator, then taking the directory part, gives the directory back |
| PosixPath.DirnameAppend | watermark_tool.py:138-139 | appending separator-free text, such as a glob pattern, leaves the directory part unchanged |
| Batch.PatternsForMember | watermark_tool.py:135-139 | the patterns are exactly `*.e` and its upper-case form for each extension `e` |
| Batch.PatternsForNoDups | watermark_tool.py:135-139 | for distinct lower-case extensions, the twelve patterns are pairwise distinct |
| BatchExamples.PatternsLiteral | watermark_tool.py:135-139 | the patterns, in search order, are `*.jpg`, `*.JPG`, `*.jpeg`, `*.JPEG`, `*.png`, `*.PNG`, `*.tiff`, `*.TIFF`, `*.bmp`, `*.BMP`, `*.webp`, `*.WEBP` |
| Batch.PatternsExclusive | watermark_tool.py:135-139 | no file name matches two different patterns |
| Batch.GlobNames | watermark_tool.py:138-139 | a glob yields no more names than listed, and each one matches the pattern |
| Batch.GlobNamesMember | watermark_tool.py:138-139 | a glob yields exactly the listed, visible names that end with the pattern's suffix |
| Batch.SearchDir | watermark_tool.py:138-139 | the directory a glob joins its matches onto is the input directory itself when it is empty, has no trailing separator or consists of separators only; otherwise it is the input with its trailing separators removed |
| Batch.GlobDir | watermark_tool.py:138-139 | every pattern without separators leaves glob the same directory part |
| Batch.Glob | watermark_tool.py:138-139 | a glob's paths are its matching names, in order, each joined onto the searched directory |
| Batch.DiscoverJoined | watermark_tool.py:136-139 | searching the patterns one after another yields every name found, joined onto the searched directory, in discovery order |
| Batch.Discover | watermark_tool.py:136-139 | the collected paths are the collected names, in order, each joined onto the searched directory |
| Batch.DiscoverNames | watermark_tool.py:136-139 | the collected names are exactly the selectable entries of the listing, each once when the listing has no repeats |
| Batch.DiscoverNamesMember | watermark_tool.py:136-139 | the collected names are exactly the listed names that match some pattern |
| Batch.MatchesSomePattern | watermark_tool.py:135-139 | a name matches some pattern exactly when it is visible and ends in a dot and an extension, all lower or all upper case |
| Batch.DiscoverNamesSelectable | watermark_tool.py:135-139 | an entry is collected exactly when it is in the listing and selectable in that sense |
| Batch.MixedCaseRejected | watermark_tool.py:137-139 | a name whose extension mixes upper- and lower-case letters is never collected |
| BatchExamples.MixedCaseNotSelected | watermark_tool.py:137-139 | `photo.Jpg` is not collected |
| BatchExamples.SelectionExamples | watermark_tool.py:137-139 | `photo.JPG` is collected; the hidden `.photo.jpg` is not |
| Batch.DiscoverNamesNoDups | watermark_tool.py:136-139 | although each extension is searched twice, a listing without repeated names yields every image once |
| Selection.GlobNamesOrder | watermark_tool.py:138-139 | one glob keeps the order of the directory listing |
| Selection.DiscoverFromOrder | watermark_tool.py:136-139 | across the patterns, a name found by an earlier pattern comes first, and names found by one pattern keep the listing order |
| Selection.DiscoveryOrder | watermark_tool.py:136-139 | of two collected images, the one matching the earlier of the twelve patterns comes first; with the same pattern, the one listed first comes first |
| Batch.OutputDir | watermark_tool.py:146 | the output directory is non-empty, has no trailing separator, and its last component is the input's last component followed by `_watermark` |
| Batch.OutputDirIsChild | watermark_tool.py:146 | the output directory extends the input path; for an input without trailing separator, the input is exactly its parent |
| BatchExamples.OutputDirExample | watermark_tool.py:146 | `/tmp/photos` writes into `/tmp/photos/photos_watermark` |
| BatchExamples.TrailingSepExample | watermark_tool.py:146 | `/tmp/photos/` has an empty last component and writes into `/tmp/photos/_watermark` |
| Batch.OutputDirOfName | watermark_tool.py:146 | for a path ending in a plain name, the output directory is that name followed by `_watermark`, inside the path |
| Batch.OutputDirOfTrailingSep | watermark_tool.py:146 | an input ending in a separator has an empty last component, so its output directory is the input followed by `_watermark` |
| Batch.OutputDirOfBareName | watermark_tool.py:131-146 | a bare name without separators gets `name/name_watermark` |
| Batch.ParentOrDot | watermark_tool.py:131 | a file's input directory is its directory part when its path has a separator, and `.` otherwise |
| Batch.TasksFor | watermark_tool.py:155-157 | one task per file, in order; each output is the file's name joined onto the output directory, and so sits directly inside it under the source's file name |
| Batch.PlanFile | watermark_tool.py:129-131 | a single file is the only task, and its output directory is derived from the file's parent, or from `.` |
| Batch.PlanDirectory | watermark_tool.py:132-146 | a directory run stops with the directory's own name exactly when nothing is collected; otherwise its output directory is derived from the directory, and its sources are the collected names, in order, joined onto the searched directory |
| Batch.Plan | watermark_tool.py:124-157 | a missing path stops the run; a directory with nothing selected stops with its own name; a file is the only task, under its parent's output directory; a directory's sources are its collected names; every output is the source's file name joined onto the output directory |
| Selection.DirectoryRunSelects | watermark_tool.py:132-139 | a directory run has one task per selectable entry, each once, in discovery order, and none for anything else |
| BatchExamples.FileModeExample | watermark_tool.py:129-131 | a bare `photo.jpg` is processed against `.` and written to `./._watermark/photo.jpg` |
| Batch.ProcessAll | watermark_tool.py:155-158 | every task is watermarked once, in order, each outcome depending only on its own image; the returned count of written images is a tally of the log that the tool itself never prints |
| Batch.WrittenCountsDecodable | watermark_tool.py:155-158 | when the colour is known and the host accepts every task's text, directory and output, exactly the images that decode are written: a broken image costs nothing to the others |
| Batch.Execute | watermark_tool.py:123-158 | the run follows its plan; images are processed only when the plan yields tasks and the output directory can be made, with one outcome per task for the same source; otherwise nothing is processed |

## Left out

- Pixel work is out of scope: decoding, conversion to RGB, text rasterisation and JPEG encoding at quality 95. Decoding becomes `ImageFile.decoded`, and saving becomes the `saves` host predicate.
- `textbbox` measurement and text drawing are left out. The measured size is the host function `measure`, applied to the resolved font and the text. Whether the font can measure and draw the text at all is the host predicate `renders`; the built-in bitmap font, for one, cannot encode 年, 月 and 日.
- The offset of the text's bounding box is dropped, as the tool drops it. `textbbox` returns a box whose left and top corner is usually not at the origin, and the tool places the text from the box's width and height alone (lines 87-89). The 20-pixel margins hold for the measured box at the computed origin. The drawn glyphs are shifted by the box's left and top offset, so their distance from an edge can differ from 20.
- Unknown colour names make Pillow raise at the second `draw.text`, at line 99; the shadow at line 96 is always drawn in black. This is modelled only as the `knownColor` host predicate.
- `piexif.load` is left out. Its result is reduced to the two tags read, and a load failure becomes `Unreadable`. Any exception while reading or parsing yields no date, as at lines 29-32.
- `datetime.now()` is not modelled. Today's date is the `today` field of the host.
- All console messages are left out: progress, warnings and errors printed with `print`. The tool prints the number of files found (line 149), not the number written.
- `argparse` is not modelled. Its `choices` make the bottom-right fallback reachable only by calling `get_watermark_position` directly. `Layout.UnknownPositionIsBottomRight` covers that path.
- The traceback that ends the program when creating the output directory at line 147 fails is not modelled. `Batch.Execute` ends the run with an empty log instead.
- The filesystem is reduced to inputs. `os.path.exists` and `os.path.isfile` become `PathKind`, and the directory's entries become `listing` in the order the filesystem lists them. A directory that cannot be listed is not modelled.
- Entries whose names contain glob metacharacters are covered. An input directory path containing them is not modelled.
- Windows path rules are not modelled. `glob` compares names through `fnmatch`, which first applies `os.path.normcase`. On POSIX systems, macOS included, that changes nothing, so matching is case-sensitive, as in the model. On Windows it folds case, so one file matches both the lower- and the upper-case pattern and is processed twice.
- Entries that match a pattern but are not regular files are collected, then fail to decode. The model handles them the same way, through `ImageFile.decoded`, and does not distinguish them.
- ExifDate.ParseTimestamp: accepts only the fixed-width ASCII form. `strptime` also accepts single-digit fields, runs of whitespace for the space, and non-ASCII digits. Such leniency does not occur in timestamps written by cameras.
- ExifDate.FormatDate: writes years below 1000 zero-padded to four digits. The C library's `%Y` may write them unpadded.
- ExifDate.ParseTimestamp: rejects seconds 60 and 61. `strptime` accepts them in the field but `datetime` then rejects them, so the result is the same.
- ExifDate.ParseTimestamp: decoding a tag's bytes as UTF-8 is reduced to `TagValue`. A tag is either `Text` or `Undecodable`.
- Python's `int` is unbounded, and so is the model's. `//` is floor division, which is Dafny's `/` for the divisor 2.

=== FILE: batch.dfy ===
/**
 The batch driver: validate the input path, discover the images, derive the
 output directory and the per-image output paths, then watermark every image
 once, in order, each independently of the others.
 */
module Batch {
  import opened Wrappers
  import opened PosixPath
  import opened ExifDate
  import opened Render

  /** What the filesystem says about the input path. */
  datatype PathKind = Missing | RegularFile | OtherEntry

  datatype ImageTask = ImageTask(source: string, output: string)

  /** How a run ends before or after planning its tasks. */
  datatype Outcome =
    | NotFound
    | NoFiles(inputDir: string)
    | Run(outputDir: string, tasks: seq<ImageTask>)

  const Extensions: seq<string> := ["jpg", "jpeg", "png", "tiff", "bmp", "webp"]

  /** ASCII upper-casing, enough for the fixed extension patterns. */
  function UpperChar(c: char): char {
    if 'a' <= c <= 'z' then (c as int - 32) as char else c
  }

  function Upper(s: string): (r: string)
    ensures |r| == |s|
  {
    seq(|s|, i requires 0 <= i < |s| => UpperChar(s[i]))
  }

  /** The glob patterns in search order: each extension in lower case, then in upper case. */
  function Patterns(): (ps: seq<string>)
    ensures |ps| == 2 * |Extensions|
  {
    PatternsFor(Extensions)
  }

  function PatternsFor(exts: seq<string>): (ps: seq<string>)
    ensures |ps| == 2 * |exts|
  {
    if exts == [] then []
    else ["*." + exts[0], Upper("*." + exts[0])] + PatternsFor(exts[1..])
  }

  predicate Hidden(name: string) {
    name != [] && name[0] == '.'
  }

  predicate EndsWith(s: string, suffix: string) {
    |suffix| <= |s| && s[|s| - |suffix|..] == suffix
  }

  /**
   Whether a directory entry matches a `*<suffix>` pattern: on a
   case-sensitive filesystem the name ends with the suffix, and `*` never
   matches a leading dot.
   */
  predicate Matches(name: string, pattern: string) {
    && !Hidden(name)
    && pattern != [] && pattern[0] == '*'
    && EndsWith(name, pattern[1..])
  }

  /** Names of a listing matching one pattern, in listing order. */
  function GlobNames(listing: seq<string>, pattern: string): (r: seq<string>)
    ensures |r| <= |listing|
    ensures forall i :: 0 <= i < |r| ==> Matches(r[i], pattern)
  {
    if listing == [] then []
    else
      var rest := GlobNames(listing[1..], pattern);
      if Matches(listing[0], pattern) then [listing[0]] + rest else rest
  }

  /** A pattern without separators, so that it matches within one directory. */
  predicate PlainPattern(pattern: string) {
    pattern != [] && Sep !in pattern
  }

  /**
   The directory part glob keeps of `join(dir, pattern)` for a plain pattern;
   it is the same for every plain pattern, and it is `dir` itself unless `dir`
   is empty or ends in a separator.
   */
  function SearchDir(dir: string): (d: string)
    ensures dir == [] ==> d == []
    ensures dir != [] && !EndsWithSep(dir) ==> d == dir
    ensures EndsWithSep(dir) && !AllSeps(dir) ==> d == RStripSeps(dir)
    ensures dir != [] && AllSeps(dir) ==> d == dir
  {
    SearchDirOf(dir);
    Dirname(Join(dir, "*"))
  }

  /** `paths` are the `names` joined onto `dir`, position by position. */
  predicate JoinedOnto(paths: seq<string>, dir: string, names: seq<string>) {
    |paths| == |names| && forall i :: 0 <= i < |paths| ==> paths[i] == Join(dir, names[i])
  }

  function JoinAll(dir: string, names: seq<string>): (paths: seq<string>)
    ensures JoinedOnto(paths, dir, names)
  {
    seq(|names|, i requires 0 <= i < |names| => Join(dir, names[i]))
  }

  /** What a glob of `join(dir, pattern)` yields: the directory part of the pattern joined to each matching name. */
  function Glob(dir: string, listing: seq<string>, pattern: string): (paths: seq<string>)
    ensures PlainPattern(pattern) ==> JoinedOnto(paths, SearchDir(dir), GlobNames(listing, pattern))
  {
    GlobDir(dir, pattern);
    JoinAll(Dirname(Join(dir, pattern)), GlobNames(listing, pattern))
  }

  function DiscoverNamesFrom(listing: seq<string>, patterns: seq<string>): seq<string> {
    if patterns == [] then []
    else GlobNames(listing, patterns[0]) + DiscoverNamesFrom(listing, patterns[1..])
  }

  function DiscoverFrom(dir: string, listing: seq<string>, patterns: seq<string>): seq<string> {
    if patterns == [] then []
    else Glob(dir, listing, patterns[0]) + DiscoverFrom(dir, listing, patterns[1..])
  }

  /** Every pattern's matches, pattern after pattern, each joined onto the searched directory. */
  function Discover(dir: string, listing: seq<string>): (files: seq<string>)
    ensures JoinedOnto(files, SearchDir(dir), DiscoverNames(listing))
  {
    PatternsPlain();
    DiscoverJoined(dir, listing, Patterns());
    DiscoverFrom(dir, listing, Patterns())
  }

  /** `names` holds exactly the selectable entries of `listing`. */
  ghost predicate SelectedFrom(names: seq<string>, listing: seq<string>) {
    forall n :: n in names <==> n in listing && Selectable(n)
  }

  /**
   The names found: exactly the selectable entries of the listing, each
   once when the listing has no repeated names.
   */
  function DiscoverNames(listing: seq<string>): (names: seq<string>)
    ensures SelectedFrom(names, listing)
    ensures NoDups(listing) ==> NoDups(names)
  {
    DiscoverNamesExactly(listing);
    DiscoverNamesNoDups(listing);
    DiscoverNamesFrom(listing, Patterns())
  }

  /**
   The output directory: a child of the input directory named after it. It is
   non-empty, has no trailing separator, and its last component is the input's
   last component followed by `_watermark`.
   */
  function OutputDir(inputDir: string): (out: string)
    ensures out != [] && !EndsWithSep(out)
    ensures Basename(out) == Basename(inputDir) + "_watermark"
  {
    var name := Basename(inputDir) + "_watermark";
    WatermarkNameHasNoSep(Basename(inputDir));
    BasenameOfJoin(inputDir, name);
    JoinParts(inputDir, name);
    var out := Join(inputDir, name);
    assert out[|out| - |name|..] == name;
    assert out[|out| - 1] == name[|name| - 1];
    out
  }

  /** A file's own directory, or the current directory when its path has no separator. */
  function ParentOrDot(path: string): (d: string)
    ensures d != []
    ensures Sep in path ==> d == Dirname(path)
    ensures Sep !in path ==> d == "."
  {
    var d := Dirname(path);
    if d == [] then "." else d
  }

  /** Every task's output keeps the source's file name and sits directly in `outputDir`. */
  predicate TasksInPlace(tasks: seq<ImageTask>, outputDir: string) {
    forall i :: 0 <= i < |tasks| ==>
      Basename(tasks[i].output) == Basename(tasks[i].source) && Dirname(tasks[i].output) == outputDir
  }

  /** One task per file, in order, each output the file's name joined onto `outputDir`. */
  predicate TasksOf(tasks: seq<ImageTask>, files: seq<string>, outputDir: string) {
    && |tasks| == |files|
    && forall i :: 0 <= i < |files| ==>
         tasks[i].source == files[i] && tasks[i].output == Join(outputDir, Basename(files[i]))
  }

  /**
   One task per file, in order: the output is the file's name joined onto
   `outputDir`, so for an output directory without trailing separator it
   lands directly inside it under the same name.
   */
  function TasksFor(files: seq<string>, outputDir: string): (tasks: seq<ImageTask>)
    ensures TasksOf(tasks, files, outputDir)
    ensures outputDir != [] && !EndsWithSep(outputDir) ==> TasksInPlace(tasks, outputDir)
  {
    OutputsInDir(files, outputDir);
    seq(|files|, i requires 0 <= i < |files| => ImageTask(files[i], Join(outputDir, Basename(files[i]))))
  }

  /** Directory entries never contain a separator and are never empty. */
  predicate ValidListing(listing: seq<string>) {
    forall i :: 0 <= i < |listing| ==> listing[i] != [] && Sep !in listing[i]
  }

  predicate OutputsInPlace(o: Outcome) {
    o.Run? ==> TasksInPlace(o.tasks, o.outputDir)
  }

  /** Every output path is the source's file name joined onto the run's output directory. */
  predicate OutputsNamed(o: Outcome) {
    o.Run? ==> forall i :: 0 <= i < |o.tasks| ==> o.tasks[i].output == Join(o.outputDir, Basename(o.tasks[i].source))
  }

  /** The tasks' sources are `names` joined onto `dir`, in order. */
  predicate SourcesFrom(o: Outcome, dir: string, names: seq<string>) {
    o.Run? ==> |o.tasks| == |names| && forall i :: 0 <= i < |names| ==> o.tasks[i].source == Join(dir, names[i])
  }

  /** A single file is the only task, written into the output directory of its parent (or of `.`). */
  function PlanFile(path: string): (o: Outcome)
    ensures o.Run? && |o.tasks| == 1 && o.tasks[0].source == path
    ensures o.outputDir == OutputDir(ParentOrDot(path))
    ensures OutputsInPlace(o) && OutputsNamed(o)
  {
    var outputDir := OutputDir(ParentOrDot(path));
    RunOf([path], outputDir, ParentOrDot(path), []);
    Run(outputDir, TasksFor([path], outputDir))
  }

  /**
   A directory is searched; an empty search stops before the output directory
   is derived. Otherwise every name found becomes a task, in discovery order,
   its source joined onto the searched directory.
   */
  function PlanDirectory(path: string, listing: seq<string>): (o: Outcome)
    ensures !o.NotFound?
    ensures o.NoFiles? <==> DiscoverNames(listing) == []
    ensures o.NoFiles? ==> o.inputDir == path
    ensures o.Run? ==> o.outputDir == OutputDir(path) && o.tasks != []
    ensures SourcesFrom(o, SearchDir(path), DiscoverNames(listing))
    ensures OutputsInPlace(o) && OutputsNamed(o)
  {
    var files := Discover(path, listing);
    if files == [] then NoFiles(path)
    else
      var outputDir := OutputDir(path);
      RunOf(files, outputDir, SearchDir(path), DiscoverNames(listing));
      Run(outputDir, TasksFor(files, outputDir))
  }

  /**
   Plans a run on `path`. A missing path stops before anything else; a
   regular file is the only task, relative to its parent directory; anything
   else is searched as a directory, and an empty search stops before the
   output directory is derived.
   */
  function Plan(path: string, kind: PathKind, listing: seq<string>): (o: Outcome)
    ensures o.NotFound? <==> kind == Missing
    ensures o.NoFiles? <==> kind == OtherEntry && DiscoverNames(listing) == []
    ensures o.NoFiles? ==> o.inputDir == path
    ensures kind == RegularFile ==>
              o.Run? && |o.tasks| == 1 && o.tasks[0].source == path && o.outputDir == OutputDir(ParentOrDot(path))
    ensures kind == OtherEntry ==> SourcesFrom(o, SearchDir(path), DiscoverNames(listing))
    ensures o.Run? && kind == OtherEntry ==> o.outputDir == OutputDir(path)
    ensures o.Run? ==> o.tasks != []
    ensures OutputsInPlace(o) && OutputsNamed(o)
  {
    match kind
    case Missing => NotFound
    case RegularFile => PlanFile(path)
    case OtherEntry => PlanDirectory(path, listing)
  }

  // Output naming.

  /** The run built from `files` names and places its outputs as the tool does, and keeps the sources' order. */
  lemma RunOf(files: seq<string>, outputDir: string, dir: string, names: seq<string>)
    requires outputDir != [] && !EndsWithSep(outputDir)
    ensures var o := Run(outputDir, TasksFor(files, outputDir));
            && |o.tasks| == |files|
            && (forall i :: 0 <= i < |files| ==> o.tasks[i].source == files[i])
            && OutputsInPlace(o) && OutputsNamed(o)
            && (JoinedOnto(files, dir, names) ==> SourcesFrom(o, dir, names))
  {
    var tasks := TasksFor(files, outputDir);
    assert TasksOf(tasks, files, outputDir);
  }

  /** The output directory's own name never contains a separator. */
  lemma WatermarkNameHasNoSep(base: string)
    requires Sep !in base
    ensures var name := base + "_watermark";
            name != [] && Sep !in name
  {
    var name := base + "_watermark";
    forall i | 0 <= i < |name| ensures name[i] != Sep {
      if i >= |base| {
        assert name[i] == "_watermark"[i - |base|];
      } else {
        assert name[i] == base[i];
      }
    }
  }

  lemma OutputsInDir(files: seq<string>, outputDir: string)
    ensures outputDir != [] && !EndsWithSep(outputDir) ==>
              forall i :: 0 <= i < |files| ==>
                var out := Join(outputDir, Basename(files[i]));
                Basename(out) == Basename(files[i]) && Dirname(out) == outputDir
  {
    if outputDir != [] && !EndsWithSep(outputDir) {
      forall i | 0 <= i < |files|
        ensures var out := Join(outputDir, Basename(files[i]));
                Basename(out) == Basename(files[i]) && Dirname(out) == outputDir
      {
        BasenameOfJoin(outputDir, Basename(files[i]));
        DirnameOfJoin(outputDir, Basename(files[i]));
      }
    }
  }

  /**
   The output directory is a child of the input directory: it extends the
   input path, and a directory without trailing separator is exactly its parent.
   */
  lemma OutputDirIsChild(inputDir: string)
    ensures |inputDir| < |OutputDir(inputDir)| && OutputDir(inputDir)[..|inputDir|] == inputDir
    ensures inputDir != [] && !EndsWithSep(inputDir) ==> Dirname(OutputDir(inputDir)) == inputDir
  {
    var name := Basename(inputDir) + "_watermark";
    WatermarkNameHasNoSep(Basename(inputDir));
    JoinParts(inputDir, name);
    if inputDir != [] && !EndsWithSep(inputDir) {
      DirnameOfJoin(inputDir, name);
    }
  }

  /** For a path whose last component is a plain name, the output directory is that name inside itself. */
  lemma OutputDirOfName(parent: string, name: string)
    requires name != [] && Sep !in name
    ensures OutputDir(parent + [Sep] + name) == parent + [Sep] + name + [Sep] + name + "_watermark"
  {
    var d := parent + [Sep] + name;
    LastSepIs(d, |parent|);
    assert Basename(d) == d[|parent| + 1..] == name;
    var child := name + "_watermark";
    assert child[0] == name[0] != Sep;
    assert d[|d| - 1] == name[|name| - 1] != Sep;
    assert Join(d, child) == d + [Sep] + child;
  }

  /** An input ending in a separator has an empty last component: the output directory is the input plus `_watermark`. */
  lemma OutputDirOfTrailingSep(d: string)
    requires EndsWithSep(d)
    ensures OutputDir(d) == d + "_watermark"
  {
    LastSepIs(d, |d| - 1);
    assert Basename(d) == [];
    assert Basename(d) + "_watermark" == "_watermark";
  }

  /** A bare name without separators gets its output directory inside itself. */
  lemma OutputDirOfBareName(name: string)
    requires name != [] && Sep !in name
    ensures OutputDir(name) == name + [Sep] + name + "_watermark"
  {
    LastSepIs(name, -1);
    assert Basename(name) == name;
    var child := name + "_watermark";
    assert child[0] == name[0] != Sep;
    assert name[|name| - 1] != Sep;
  }

  // Discovery.

  /** A glob yields exactly the listed names that match. */
  lemma {:induction false} GlobNamesMember(listing: seq<string>, pattern: string, n: string)
    ensures n in GlobNames(listing, pattern) <==> n in listing && Matches(n, pattern)
  {
    if listing != [] {
      GlobNamesMember(listing[1..], pattern, n);
      assert listing == [listing[0]] + listing[1..];
    }
  }

  lemma DiscoverNamesMember(listing: seq<string>, patterns: seq<string>, n: string)
    ensures n in DiscoverNamesFrom(listing, patterns)
            <==> n in listing && exists k :: 0 <= k < |patterns| && Matches(n, patterns[k])
  {
    if patterns != [] {
      GlobNamesMember(listing, patterns[0], n);
      DiscoverNamesMember(listing, patterns[1..], n);
      if exists k :: 0 <= k < |patterns| && Matches(n, patterns[k]) {
        var k :| 0 <= k < |patterns| && Matches(n, patterns[k]);
        if k > 0 { assert Matches(n, patterns[1..][k - 1]); }
      }
      if exists k :: 0 <= k < |patterns[1..]| && Matches(n, patterns[1..][k]) {
        var k :| 0 <= k < |patterns[1..]| && Matches(n, patterns[1..][k]);
        assert Matches(n, patterns[k + 1]);
      }
    }
  }

  lemma SearchDirOf(dir: string)
    ensures dir == [] ==> Dirname(Join(dir, "*")) == []
    ensures dir != [] && !EndsWithSep(dir) ==> Dirname(Join(dir, "*")) == dir
    ensures EndsWithSep(dir) && !AllSeps(dir) ==> Dirname(Join(dir, "*")) == RStripSeps(dir)
    ensures dir != [] && AllSeps(dir) ==> Dirname(Join(dir, "*")) == dir
  {
    if dir != [] && !EndsWithSep(dir) {
      DirnameOfJoin(dir, "*");
    } else if EndsWithSep(dir) {
      assert Join(dir, "*") == dir + "*";
      DirnameAppend(dir, "*");
      LastSepIs(dir, |dir| - 1);
      assert dir[..|dir|] == dir;
    }
  }

  /** Every plain pattern leaves the same directory part: the one `*` leaves. */
  lemma GlobDir(dir: string, pattern: string)
    ensures PlainPattern(pattern) ==> Dirname(Join(dir, pattern)) == Dirname(Join(dir, "*"))
  {
    if PlainPattern(pattern) {
      assert pattern[0] in pattern;
      var head := if dir == [] || EndsWithSep(dir) then dir else dir + [Sep];
      assert Join(dir, pattern) == head + pattern;
      assert Join(dir, "*") == head + "*";
      DirnameAppend(head, pattern);
      DirnameAppend(head, "*");
    }
  }

  lemma JoinedOntoConcat(a: seq<string>, na: seq<string>, b: seq<string>, nb: seq<string>, dir: string)
    requires JoinedOnto(a, dir, na) && JoinedOnto(b, dir, nb)
    ensures JoinedOnto(a + b, dir, na + nb)
  {
    forall i | 0 <= i < |a| + |b| ensures (a + b)[i] == Join(dir, (na + nb)[i]) {
      if i < |a| {
        assert (a + b)[i] == a[i] && (na + nb)[i] == na[i];
      } else {
        assert (a + b)[i] == b[i - |a|] && (na + nb)[i] == nb[i - |a|];
      }
    }
  }

  /** Searching plain patterns one after another yields the names found, each joined onto the searched directory. */
  lemma {:induction false} DiscoverJoined(dir: string, listing: seq<string>, patterns: seq<string>)
    requires forall k :: 0 <= k < |patterns| ==> PlainPattern(patterns[k])
    ensures JoinedOnto(DiscoverFrom(dir, listing, patterns), SearchDir(dir), DiscoverNamesFrom(listing, patterns))
  {
    if patterns != [] {
      assert PlainPattern(patterns[0]);
      assert forall k :: 0 <= k < |patterns[1..]| ==> PlainPattern(patterns[1..][k]) by {
        forall k | 0 <= k < |patterns[1..]| ensures PlainPattern(patterns[1..][k]) {
          assert patterns[1..][k] == patterns[k + 1];
        }
      }
      DiscoverJoined(dir, listing, patterns[1..]);
      JoinedOntoConcat(Glob(dir, listing, patterns[0]), GlobNames(listing, patterns[0]),
                       DiscoverFrom(dir, listing, patterns[1..]), DiscoverNamesFrom(listing, patterns[1..]), SearchDir(dir));
    }
  }

  /** Every search pattern is plain. */
  lemma PatternsPlain()
    ensures forall k :: 0 <= k < |Patterns()| ==> PlainPattern(Patterns()[k])
  {
    forall k | 0 <= k < |Patterns()| ensures PlainPattern(Patterns()[k]) {
      var w := PatternWord(Patterns()[k]);
      assert Patterns()[k] == "*." + w;
    }
  }

  // Which entries are selected.

  /**
   The selection rule stated directly: a visible name ending in a dot and one
   of the extensions, spelled entirely in lower case or entirely in upper case.
   */
  predicate Selectable(name: string) {
    && !Hidden(name)
    && exists e :: e in Extensions && (EndsWith(name, "." + e) || EndsWith(name, "." + Upper(e)))
  }

  lemma UpperStarDot(e: string)
    ensures Upper("*." + e) == "*." + Upper(e)
  {
  }

  /** A non-empty word of lower-case ASCII letters, as every extension is. */
  predicate LowerWord(w: string) {
    w != [] && forall i :: 0 <= i < |w| ==> 'a' <= w[i] <= 'z'
  }

  lemma ExtensionsWellFormed()
    ensures NoDups(Extensions)
    ensures forall e :: e in Extensions ==> LowerWord(e)
  {
  }

  lemma UpperOfLowerWord(w: string)
    requires LowerWord(w)
    ensures Upper(w) != [] && forall i :: 0 <= i < |w| ==> 'A' <= Upper(w)[i] <= 'Z'
  {
  }

  lemma UpperInjective(w1: string, w2: string)
    requires LowerWord(w1) && LowerWord(w2) && Upper(w1) == Upper(w2)
    ensures w1 == w2
  {
    forall i | 0 <= i < |w1| ensures w1[i] == w2[i] {
      assert UpperChar(w1[i]) == Upper(w1)[i] == Upper(w2)[i] == UpperChar(w2[i]);
    }
  }

  lemma StarDotInjective(a: string, b: string)
    requires "*." + a == "*." + b
    ensures a == b
  {
    assert a == ("*." + a)[2..] == ("*." + b)[2..] == b;
  }

  /** The patterns are exactly `*.e` and its upper-case form, for each extension `e`. */
  lemma {:induction false} PatternsForMember(exts: seq<string>, p: string)
    ensures p in PatternsFor(exts) <==> exists e :: e in exts && (p == "*." + e || p == "*." + Upper(e))
  {
    if exts != [] {
      PatternsForMember(exts[1..], p);
      UpperStarDot(exts[0]);
      if exists e :: e in exts[1..] && (p == "*." + e || p == "*." + Upper(e)) {
        var e :| e in exts[1..] && (p == "*." + e || p == "*." + Upper(e));
        assert e in exts;
      }
      if exists e :: e in exts && (p == "*." + e || p == "*." + Upper(e)) {
        var e :| e in exts && (p == "*." + e || p == "*." + Upper(e));
        if e != exts[0] {
          assert e in exts[1..];
        }
      }
    }
  }

  lemma CaseDiffers(e1: string, e2: string)
    requires LowerWord(e1) && LowerWord(e2)
    ensures e1 != Upper(e2)
  {
    UpperOfLowerWord(e2);
    assert 'A' <= Upper(e2)[0] <= 'Z';
  }

  /** Two patterns built from distinct lower-case words, or from one word in its two cases, differ. */
  lemma PatternsDiffer(e1: string, up1: bool, e2: string, up2: bool)
    requires LowerWord(e1) && LowerWord(e2)
    requires e1 != e2 || up1 != up2
    ensures "*." + (if up1 then Upper(e1) else e1) != "*." + (if up2 then Upper(e2) else e2)
  {
    var w1 := if up1 then Upper(e1) else e1;
    var w2 := if up2 then Upper(e2) else e2;
    CaseDiffers(e1, e2);
    CaseDiffers(e2, e1);
    if "*." + w1 == "*." + w2 {
      StarDotInjective(w1, w2);
      if up1 && up2 {
        UpperInjective(e1, e2);
      }
    }
  }

  lemma {:induction false} PatternsForNoDups(exts: seq<string>)
    requires NoDups(exts)
    requires forall e :: e in exts ==> LowerWord(e)
    ensures NoDups(PatternsFor(exts))
  {
    if exts != [] {
      var e0 := exts[0];
      var rest := PatternsFor(exts[1..]);
      assert NoDups(exts[1..]) by {
        forall i, j | 0 <= i < j < |exts[1..]| ensures exts[1..][i] != exts[1..][j] {
          assert exts[1..][i] == exts[i + 1] && exts[1..][j] == exts[j + 1];
        }
      }
      PatternsForNoDups(exts[1..]);
      UpperStarDot(e0);
      PatternsDiffer(e0, false, e0, true);
      var head := ["*." + e0, "*." + Upper(e0)];
      forall x | x in head ensures x !in rest {
        if x in rest {
          PatternsForMember(exts[1..], x);
          var e :| e in exts[1..] && (x == "*." + e || x == "*." + Upper(e));
          var j :| 0 <= j < |exts[1..]| && exts[1..][j] == e;
          assert e == exts[j + 1] != e0;
          PatternsDiffer(e0, x == "*." + Upper(e0), e, x != "*." + e);
          assert false;
        }
      }
      NoDupsConcat(head, rest);
    }
  }

  /** Every pattern is `*.` followed by a word without dots or separators. */
  lemma PatternWord(p: string) returns (w: string)
    requires p in Patterns()
    ensures p == "*." + w && '.' !in w && Sep !in w
  {
    PatternsForMember(Extensions, p);
    ExtensionsWellFormed();
    var e :| e in Extensions && (p == "*." + e || p == "*." + Upper(e));
    UpperOfLowerWord(e);
    w := if p == "*." + e then e else Upper(e);
  }

  lemma StarDotMatches(name: string, w: string)
    ensures Matches(name, "*." + w) <==> !Hidden(name) && EndsWith(name, "." + w)
  {
    assert ("*." + w)[1..] == "." + w;
  }

  /** When a name ends in two dot-led suffixes, the longer one has a dot where the shorter one starts. */
  lemma DotInLongerSuffix(name: string, w1: string, w2: string)
    requires EndsWith(name, "." + w1) && EndsWith(name, "." + w2)
    requires |w1| < |w2|
    ensures '.' in w2
  {
    var a, b := "." + w1, "." + w2;
    assert b[|b| - |a|..] == a;
    assert w2[|b| - |a| - 1] == b[|b| - |a|] == '.';
  }

  /** Two dot-led suffixes without further dots cannot both end the same name unless they are equal. */
  lemma DotSuffixesExclusive(name: string, w1: string, w2: string)
    requires '.' !in w1 && '.' !in w2
    requires EndsWith(name, "." + w1) && EndsWith(name, "." + w2)
    ensures w1 == w2
  {
    var a, b := "." + w1, "." + w2;
    if |w1| < |w2| {
      DotInLongerSuffix(name, w1, w2);
      assert false;
    } else if |w2| < |w1| {
      DotInLongerSuffix(name, w2, w1);
      assert false;
    } else {
      assert a == name[|name| - |a|..] == b;
      assert w1 == a[1..] == b[1..] == w2;
    }
  }

  /** No name matches two different patterns. */
  lemma PatternsExclusive(name: string, i: nat, j: nat)
    requires i < j < |Patterns()|
    ensures !(Matches(name, Patterns()[i]) && Matches(name, Patterns()[j]))
  {
    if Matches(name, Patterns()[i]) && Matches(name, Patterns()[j]) {
      ExtensionsWellFormed();
      PatternsForNoDups(Extensions);
      var wi := PatternWord(Patterns()[i]);
      var wj := PatternWord(Patterns()[j]);
      StarDotMatches(name, wi);
      StarDotMatches(name, wj);
      DotSuffixesExclusive(name, wi, wj);
      assert false;
    }
  }

  lemma MatchedIsSelectable(name: string, p: string)
    requires p in Patterns() && Matches(name, p)
    ensures Selectable(name)
  {
    PatternsForMember(Extensions, p);
    var e :| e in Extensions && (p == "*." + e || p == "*." + Upper(e));
    StarDotMatches(name, e);
    StarDotMatches(name, Upper(e));
  }

  lemma SelectableIsMatched(name: string) returns (p: string)
    requires Selectable(name)
    ensures p in Patterns() && Matches(name, p)
  {
    var e :| e in Extensions && (EndsWith(name, "." + e) || EndsWith(name, "." + Upper(e)));
    p := if EndsWith(name, "." + e) then "*." + e else "*." + Upper(e);
    PatternsForMember(Extensions, p);
    StarDotMatches(name, e);
    StarDotMatches(name, Upper(e));
  }

  /** A name whose extension mixes upper- and lower-case letters is never selected. */
  lemma MixedCaseRejected(name: string, w: string, i: nat, j: nat)
    requires '.' !in w && EndsWith(name, "." + w)
    requires i < |w| && j < |w| && 'A' <= w[i] <= 'Z' && 'a' <= w[j] <= 'z'
    ensures !Selectable(name)
  {
    if Selectable(name) {
      var p := SelectableIsMatched(name);
      var v := PatternWord(p);
      StarDotMatches(name, v);
      DotSuffixesExclusive(name, w, v);
      PatternsForMember(Extensions, p);
      ExtensionsWellFormed();
      var e :| e in Extensions && (p == "*." + e || p == "*." + Upper(e));
      UpperOfLowerWord(e);
      if p == "*." + e {
        StarDotInjective(w, e);
      } else {
        StarDotInjective(w, Upper(e));
      }
      assert false;
    }
  }

  /** Some pattern matches a name exactly when the name is selectable. */
  lemma MatchesSomePattern(name: string)
    ensures (exists k :: 0 <= k < |Patterns()| && Matches(name, Patterns()[k])) <==> Selectable(name)
  {
    if exists k :: 0 <= k < |Patterns()| && Matches(name, Patterns()[k]) {
      var k :| 0 <= k < |Patterns()| && Matches(name, Patterns()[k]);
      MatchedIsSelectable(name, Patterns()[k]);
    }
    if Selectable(name) {
      var p := SelectableIsMatched(name);
      var k :| 0 <= k < |Patterns()| && Patterns()[k] == p;
    }
  }

  /** A directory entry is discovered exactly when it is selectable. */
  lemma DiscoverNamesSelectable(listing: seq<string>, name: string)
    ensures name in DiscoverNamesFrom(listing, Patterns()) <==> name in listing && Selectable(name)
  {
    DiscoverNamesMember(listing, Patterns(), name);
    MatchesSomePattern(name);
  }

  predicate NoDups(s: seq<string>) {
    forall i, j :: 0 <= i < j < |s| ==> s[i] != s[j]
  }

  lemma {:induction false} GlobNamesNoDups(listing: seq<string>, pattern: string)
    requires NoDups(listing)
    ensures NoDups(GlobNames(listing, pattern))
  {
    if listing != [] {
      assert NoDups(listing[1..]) by {
        forall i, j | 0 <= i < j < |listing[1..]| ensures listing[1..][i] != listing[1..][j] {
          assert listing[1..][i] == listing[i + 1] && listing[1..][j] == listing[j + 1];
        }
      }
      GlobNamesNoDups(listing[1..], pattern);
      var rest := GlobNames(listing[1..], pattern);
      if Matches(listing[0], pattern) {
        assert listing[0] !in rest by {
          GlobNamesMember(listing[1..], pattern, listing[0]);
          assert listing[0] !in listing[1..] by {
            forall k | 0 <= k < |listing[1..]| ensures listing[1..][k] != listing[0] {
              assert listing[1..][k] == listing[k + 1];
            }
          }
        }
        var r := [listing[0]] + rest;
        forall i, j | 0 <= i < j < |r| ensures r[i] != r[j] {
          if i == 0 {
            assert r[j] == rest[j - 1];
            assert r[j] in rest;
          } else {
            assert r[i] == rest[i - 1] && r[j] == rest[j - 1];
          }
        }
      }
    }
  }

  lemma NoDupsConcat(a: seq<string>, b: seq<string>)
    requires NoDups(a) && NoDups(b)
    requires forall x :: x in a ==> x !in b
    ensures NoDups(a + b)
  {
    var r := a + b;
    forall i, j | 0 <= i < j < |r| ensures r[i] != r[j] {
      if j < |a| {
        assert r[i] == a[i] && r[j] == a[j];
      } else if i >= |a| {
        assert r[i] == b[i - |a|] && r[j] == b[j - |a|];
      } else {
        assert r[i] == a[i] && r[j] == b[j - |a|];
        assert a[i] in a && b[j - |a|] in b;
      }
    }
  }

  /** Searching the later patterns of the list never finds a name an earlier one matched. */
  lemma {:induction false} DiscoverNamesFromNoDups(listing: seq<string>, from: nat)
    requires from <= |Patterns()|
    requires NoDups(listing)
    ensures NoDups(DiscoverNamesFrom(listing, Patterns()[from..]))
    decreases |Patterns()| - from
  {
    var ps := Patterns()[from..];
    if ps != [] {
      assert ps[1..] == Patterns()[from + 1..];
      DiscoverNamesFromNoDups(listing, from + 1);
      GlobNamesNoDups(listing, ps[0]);
      var a := GlobNames(listing, ps[0]);
      var b := DiscoverNamesFrom(listing, ps[1..]);
      forall x | x in a ensures x !in b {
        LaterPatternsMiss(listing, from, x);
      }
      NoDupsConcat(a, b);
    }
  }

  /** A name one pattern finds is found by none of the patterns after it. */
  lemma LaterPatternsMiss(listing: seq<string>, from: nat, x: string)
    requires from < |Patterns()|
    ensures x in GlobNames(listing, Patterns()[from]) ==> x !in DiscoverNamesFrom(listing, Patterns()[from + 1..])
  {
    var ps := Patterns()[from + 1..];
    if x in GlobNames(listing, Patterns()[from]) && x in DiscoverNamesFrom(listing, ps) {
      GlobNamesMember(listing, Patterns()[from], x);
      DiscoverNamesMember(listing, ps, x);
      var k :| 0 <= k < |ps| && Matches(x, ps[k]);
      PatternsExclusive(x, from, from + 1 + k);
      assert false;
    }
  }

  /** A listing without repeated names yields each image once, even though every extension is searched twice. */
  lemma DiscoverNamesNoDups(listing: seq<string>)
    ensures NoDups(listing) ==> NoDups(DiscoverNamesFrom(listing, Patterns()))
  {
    if NoDups(listing) {
      assert Patterns()[0..] == Patterns();
      DiscoverNamesFromNoDups(listing, 0);
    }
  }

  lemma DiscoverNamesExactly(listing: seq<string>)
    ensures SelectedFrom(DiscoverNamesFrom(listing, Patterns()), listing)
  {
    forall n ensures n in DiscoverNamesFrom(listing, Patterns()) <==> n in listing && Selectable(n) {
      DiscoverNamesSelectable(listing, n);
    }
  }

  // Processing.

  /** How many images of a log were written. */
  function CountWritten(log: seq<FileOutcome>): (n: nat)
    ensures n <= |log|
  {
    if log == [] then 0
    else CountWritten(log[..|log| - 1]) + (if log[|log| - 1].Written? then 1 else 0)
  }

  /** How many of the tasks' source images decode. */
  function CountDecodable(tasks: seq<ImageTask>, files: string -> ImageFile): (n: nat)
    ensures n <= |tasks|
  {
    if tasks == [] then 0
    else CountDecodable(tasks[..|tasks| - 1], files) + (if files(tasks[|tasks| - 1].source).decoded.Some? then 1 else 0)
  }

  /** The outcome of watermarking one task's image. */
  predicate OutcomeOf(o: FileOutcome, t: ImageTask, files: string -> ImageFile, host: Host, spec: WatermarkSpec) {
    o == AddWatermark(t.source, t.output, files(t.source), host, spec)
  }

  /** Each entry of `log` is the outcome of the task at the same position, on its own. */
  predicate IsLogOf(log: seq<FileOutcome>, tasks: seq<ImageTask>, files: string -> ImageFile, host: Host, spec: WatermarkSpec) {
    && |log| == |tasks|
    && forall i :: 0 <= i < |tasks| ==> OutcomeOf(log[i], tasks[i], files, host, spec)
  }

  /**
   Watermarks every task once, in order. Each image's outcome depends only on
   that image: a failure is recorded and the loop carries on.
   */
  method ProcessAll(tasks: seq<ImageTask>, files: string -> ImageFile, host: Host, spec: WatermarkSpec)
    returns (log: seq<FileOutcome>, written: nat)
    ensures IsLogOf(log, tasks, files, host, spec)
    ensures written == CountWritten(log)
  {
    log := [];
    written := 0;
    for i := 0 to |tasks|
      invariant IsLogOf(log, tasks[..i], files, host, spec)
      invariant written == CountWritten(log)
    {
      var t := tasks[i];
      var outcome := AddWatermark(t.source, t.output, files(t.source), host, spec);
      LogExtend(log, tasks, i, outcome, files, host, spec);
      CountWrittenExtend(log, outcome);
      log := log + [outcome];
      if outcome.Written? {
        written := written + 1;
      }
    }
    assert tasks[..|tasks|] == tasks;
  }

  lemma LogExtend(log: seq<FileOutcome>, tasks: seq<ImageTask>, i: nat, outcome: FileOutcome,
                  files: string -> ImageFile, host: Host, spec: WatermarkSpec)
    requires i < |tasks| && IsLogOf(log, tasks[..i], files, host, spec)
    requires OutcomeOf(outcome, tasks[i], files, host, spec)
    ensures IsLogOf(log + [outcome], tasks[..i + 1], files, host, spec)
  {
    var l, ts := log + [outcome], tasks[..i + 1];
    forall k | 0 <= k < |ts|
      ensures OutcomeOf(l[k], ts[k], files, host, spec)
    {
      if k < i {
        assert OutcomeOf(log[k], tasks[..i][k], files, host, spec);
        assert l[k] == log[k] && ts[k] == tasks[..i][k];
      } else {
        assert l[k] == outcome && ts[k] == tasks[i];
      }
    }
  }

  lemma CountWrittenExtend(log: seq<FileOutcome>, outcome: FileOutcome)
    ensures CountWritten(log + [outcome]) == CountWritten(log) + (if outcome.Written? then 1 else 0)
  {
    assert (log + [outcome])[..|log|] == log;
  }

  /**
   With a colour the library knows and every output writable, exactly the
   images that decode are written: each corrupt image is one failure and
   costs nothing to the others.
   */
  lemma {:induction false} WrittenCountsDecodable(log: seq<FileOutcome>, tasks: seq<ImageTask>,
                                                  files: string -> ImageFile, host: Host, spec: WatermarkSpec)
    requires IsLogOf(log, tasks, files, host, spec)
    requires host.knownColor(spec.color)
    requires forall i :: 0 <= i < |tasks| ==> HostAccepts(tasks[i], files, host, spec)
    ensures CountWritten(log) == CountDecodable(tasks, files)
  {
    if tasks != [] {
      var n := |tasks| - 1;
      assert IsLogOf(log[..n], tasks[..n], files, host, spec) by {
        forall i | 0 <= i < n
          ensures OutcomeOf(log[..n][i], tasks[..n][i], files, host, spec)
        {
          assert log[..n][i] == log[i] && tasks[..n][i] == tasks[i];
        }
      }
      WrittenCountsDecodable(log[..n], tasks[..n], files, host, spec);
    }
  }

  /**
   The host lets a task through every step after decoding: the resolved font
   renders its text, its output directory can be made, and its output saved.
   */
  predicate HostAccepts(t: ImageTask, files: string -> ImageFile, host: Host, spec: WatermarkSpec) {
    && host.renders(ResolveFont(spec.fontSize, host.fontLoads), WatermarkText(GetExifDate(files(t.source).exif), host.today))
    && host.makesDir(Dirname(t.output))
    && host.saves(t.output)
  }

  /** Every log entry is about the source of its own task. */
  lemma LogSources(log: seq<FileOutcome>, tasks: seq<ImageTask>, files: string -> ImageFile, host: Host, spec: WatermarkSpec)
    requires IsLogOf(log, tasks, files, host, spec)
    ensures forall i :: 0 <= i < |log| ==> log[i].source == tasks[i].source
  {
    forall i | 0 <= i < |log| ensures log[i].source == tasks[i].source {
      assert log[i] == AddWatermark(tasks[i].source, tasks[i].output, files(tasks[i].source), host, spec);
    }
  }

  /**
   The whole run: plan it; when there are tasks, create the output directory,
   and if that fails the run ends before any image is touched; otherwise
   process every task.
   */
  method Execute(path: string, kind: PathKind, listing: seq<string>,
                 files: string -> ImageFile, host: Host, spec: WatermarkSpec)
    returns (outcome: Outcome, log: seq<FileOutcome>, written: nat)
    ensures outcome == Plan(path, kind, listing)
    ensures outcome.NotFound? <==> kind == Missing
    ensures !(outcome.Run? && host.makesDir(outcome.outputDir)) ==> log == [] && written == 0
    ensures outcome.Run? && host.makesDir(outcome.outputDir) ==>
              IsLogOf(log, outcome.tasks, files, host, spec) && written == CountWritten(log)
    ensures outcome.Run? ==> forall i :: 0 <= i < |log| ==> log[i].source == outcome.tasks[i].source
  {
    outcome := Plan(path, kind, listing);
    if outcome.Run? && host.makesDir(outcome.outputDir) {
      log, written := ProcessAll(outcome.tasks, files, host, spec);
      LogSources(log, outcome.tasks, files, host, spec);
    } else {
      log, written := [], 0;
    }
  }
}

=== FILE: batch_examples.dfy ===
/**
 Worked examples of the batch driver on concrete paths and file names.
 */
module BatchExamples {
  import opened PosixPath
  import opened Batch

  /** The worked example: `/tmp/photos` writes into `/tmp/photos/photos_watermark`. */
  lemma OutputDirExample()
    ensures OutputDir("/tmp/photos") == "/tmp/photos/photos_watermark"
  {
    PhotosSpelling();
    OutputDirOfName("/tmp", "photos");
  }

  lemma PhotosSpelling()
    ensures "/tmp/photos" == "/tmp" + [Sep] + "photos"
    ensures "/tmp" + [Sep] + "photos" + [Sep] + "photos" + "_watermark" == "/tmp/photos/photos_watermark"
  {
  }

  /** A trailing separator leaves an empty last component, so the output directory is `_watermark`. */
  lemma TrailingSepExample()
    ensures OutputDir("/tmp/photos/") == "/tmp/photos/_watermark"
  {
    OutputDirOfTrailingSep("/tmp/photos/");
  }

  lemma UpperWords()
    ensures Upper("jpg") == "JPG" && Upper("jpeg") == "JPEG" && Upper("png") == "PNG"
    ensures Upper("tiff") == "TIFF" && Upper("bmp") == "BMP" && Upper("webp") == "WEBP"
  {
  }

  /** The twelve patterns, in the order they are searched. */
  lemma PatternsLiteral()
    ensures Patterns() == ["*.jpg", "*.JPG", "*.jpeg", "*.JPEG", "*.png", "*.PNG",
                           "*.tiff", "*.TIFF", "*.bmp", "*.BMP", "*.webp", "*.WEBP"]
  {
    UpperWords();
    StarDotSpelling();
    var x := Extensions;
    assert PatternsFor(x[6..]) == [];
    assert PatternsFor(x[5..]) == ["*.webp", "*.WEBP"] by {
      assert x[5..][0] == "webp" && x[5..][1..] == x[6..];
      UpperStarDot("webp");
    }
    assert PatternsFor(x[4..]) == ["*.bmp", "*.BMP"] + PatternsFor(x[5..]) by {
      assert x[4..][0] == "bmp" && x[4..][1..] == x[5..];
      UpperStarDot("bmp");
    }
    assert PatternsFor(x[3..]) == ["*.tiff", "*.TIFF"] + PatternsFor(x[4..]) by {
      assert x[3..][0] == "tiff" && x[3..][1..] == x[4..];
      UpperStarDot("tiff");
    }
    assert PatternsFor(x[2..]) == ["*.png", "*.PNG"] + PatternsFor(x[3..]) by {
      assert x[2..][0] == "png" && x[2..][1..] == x[3..];
      UpperStarDot("png");
    }
    assert PatternsFor(x[1..]) == ["*.jpeg", "*.JPEG"] + PatternsFor(x[2..]) by {
      assert x[1..][0] == "jpeg" && x[1..][1..] == x[2..];
      UpperStarDot("jpeg");
    }
    assert PatternsFor(x) == ["*.jpg", "*.JPG"] + PatternsFor(x[1..]) by {
      assert x[0] == "jpg";
      UpperStarDot("jpg");
    }
  }

  lemma StarDotSpelling()
    ensures "*." + "jpg" == "*.jpg" && "*." + "JPG" == "*.JPG" && "*." + "jpeg" == "*.jpeg" && "*." + "JPEG" == "*.JPEG"
    ensures "*." + "png" == "*.png" && "*." + "PNG" == "*.PNG" && "*." + "tiff" == "*.tiff" && "*." + "TIFF" == "*.TIFF"
    ensures "*." + "bmp" == "*.bmp" && "*." + "BMP" == "*.BMP" && "*." + "webp" == "*.webp" && "*." + "WEBP" == "*.WEBP"
  {
  }

  /** An extension in mixed case is not picked up. */
  lemma MixedCaseNotSelected()
    ensures !Selectable("photo.Jpg")
  {
    var n := "photo.Jpg";
    assert n[|n| - 4..] == ".Jpg";
    MixedCaseRejected(n, "Jpg", 0, 1);
  }

  /** An all-upper-case extension is picked up; a hidden file is not. */
  lemma SelectionExamples()
    ensures Selectable("photo.JPG")
    ensures !Selectable(".photo.jpg")
  {
    UpperWords();
    assert EndsWith("photo.JPG", ".JPG");
    assert "jpg" in Extensions;
  }

  lemma BareNameParts()
    ensures ParentOrDot("photo.jpg") == "."
    ensures Basename("photo.jpg") == "photo.jpg"
  {
    LastSepIs("photo.jpg", -1);
  }

  lemma DotOutputDir()
    ensures OutputDir(".") == "./._watermark"
  {
    DotSpelling();
    OutputDirOfBareName(".");
  }

  lemma DotSpelling()
    ensures "." + [Sep] + "." + "_watermark" == "./._watermark"
  {
  }

  lemma SingleTask(file: string, out: string)
    ensures TasksFor([file], out) == [ImageTask(file, Join(out, Basename(file)))]
  {
    var t := TasksFor([file], out);
    assert TasksOf(t, [file], out);
    assert t[0] == ImageTask(file, Join(out, Basename(file)));
    assert t == [t[0]];
  }

  lemma FileModeOutput()
    ensures Join("./._watermark", "photo.jpg") == "./._watermark/photo.jpg"
  {
    var out, p := "./._watermark", "photo.jpg";
    assert Join(out, p) == out + "/" + p;
  }

  /** A single file is processed on its own, relative to its parent; a bare name's parent is `.`. */
  lemma FileModeExample()
    ensures Plan("photo.jpg", RegularFile, []) == Run("./._watermark", [ImageTask("photo.jpg", "./._watermark/photo.jpg")])
  {
    BareNameParts();
    DotOutputDir();
    FileModeOutput();
    SingleTask("photo.jpg", "./._watermark");
  }
}

=== FILE: decimal.dfy ===
/**
 Fixed-width decimal fields: the `%Y`, `%m`, `%d`, `%H`, `%M`, `%S` fields of a
 timestamp are runs of ASCII digits, read as a number on input and written
 zero-padded to a fixed width on output.
 */
module Decimal {

  predicate IsDigit(c: char) {
    '0' <= c <= '9'
  }

  predicate AllDigits(s: string) {
    forall i :: 0 <= i < |s| ==> IsDigit(s[i])
  }

  function Pow10(n: nat): (r: nat)
    ensures r >= 1
  {
    if n == 0 then 1 else 10 * Pow10(n - 1)
  }

  /** The number a run of digits denotes (most significant digit first). */
  function ValueOf(s: string): (v: nat)
    requires AllDigits(s)
    ensures v < Pow10(|s|)
  {
    if s == [] then 0
    else ValueOf(s[..|s| - 1]) * 10 + (s[|s| - 1] as int - '0' as int)
  }

  function DigitChar(d: nat): (c: char)
    requires d < 10
    ensures IsDigit(c) && c as int - '0' as int == d
  {
    ('0' as int + d) as char
  }

  /** `n` written in exactly `width` digits, zero-padded on the left. */
  function PadDigits(n: nat, width: nat): (s: string)
    ensures |s| == width && AllDigits(s)
  {
    if width == 0 then []
    else PadDigits(n / 10, width - 1) + [DigitChar(n % 10)]
  }

  /** Reading back a padded number gives the number, when it fits the width. */
  lemma {:induction false} ValueOfPadDigits(n: nat, width: nat)
    requires n < Pow10(width)
    ensures ValueOf(PadDigits(n, width)) == n
  {
    if width > 0 {
      var s := PadDigits(n, width);
      assert s[..|s| - 1] == PadDigits(n / 10, width - 1);
      ValueOfPadDigits(n / 10, width - 1);
    }
  }

  /** Padding the value of a digit run to its own width gives the run back. */
  lemma {:induction false} PadDigitsOfValue(s: string)
    requires AllDigits(s)
    ensures PadDigits(ValueOf(s), |s|) == s
  {
    if s != [] {
      var init := s[..|s| - 1];
      PadDigitsOfValue(init);
      assert ValueOf(s) / 10 == ValueOf(init);
      assert s == init + [s[|s| - 1]];
    }
  }

  /** Two numbers that fit a width are equal exactly when their padded forms are. */
  lemma PadDigitsInjective(a: nat, b: nat, width: nat)
    requires a < Pow10(width) && b < Pow10(width)
    ensures PadDigits(a, width) == PadDigits(b, width) <==> a == b
  {
    ValueOfPadDigits(a, width);
    ValueOfPadDigits(b, width);
  }
}

=== FILE: exif_date.dfy ===
/**
 Capture-date extraction: the EXIF container is reduced to its two relevant
 tags, DateTimeOriginal (Exif IFD) and DateTime (0th IFD). A tag holds a
 `YYYY:MM:DD HH:MM:SS` timestamp, which is reformatted as `YYYY年MM月DD日`.
 */
module ExifDate {
  import opened Wrappers
  import opened Decimal

  datatype Date = Date(year: nat, month: nat, day: nat)
  datatype DateTime = DateTime(date: Date, hour: nat, minute: nat, second: nat)

  /** A tag's raw bytes either decode as UTF-8 text or they do not. */
  datatype TagValue = Text(s: string) | Undecodable

  /** The metadata of one image file; `Unreadable` when the container cannot be loaded at all. */
  datatype ExifContainer =
    | Unreadable
    | Container(original: Option<TagValue>, modified: Option<TagValue>)

  // The proleptic Gregorian calendar, years 1 to 9999.

  predicate IsLeapYear(y: int) {
    y % 4 == 0 && (y % 100 != 0 || y % 400 == 0)
  }

  function DaysInMonth(y: int, m: int): (n: int)
    requires 1 <= m <= 12
    ensures 28 <= n <= 31
    ensures m == 2 ==> n <= 29 && (n == 29 <==> IsLeapYear(y))
    ensures m != 2 ==> 30 <= n && (n == 30 <==> m == 4 || m == 6 || m == 9 || m == 11)
  {
    if m == 2 then (if IsLeapYear(y) then 29 else 28)
    else if m == 4 || m == 6 || m == 9 || m == 11 then 30
    else 31
  }

  predicate ValidDate(d: Date) {
    && 1 <= d.year <= 9999
    && 1 <= d.month <= 12
    && 1 <= d.day <= DaysInMonth(d.year, d.month)
  }

  predicate ValidDateTime(t: DateTime) {
    && ValidDate(t.date)
    && 0 <= t.hour <= 23
    && 0 <= t.minute <= 59
    && 0 <= t.second <= 59
  }

  /** The `%Y:%m:%d %H:%M:%S` rendering of a timestamp, 19 characters long. */
  function FormatTimestamp(t: DateTime): (s: string)
    ensures |s| == 19
  {
    DatePart(t.date) + [' '] + ClockPart(t)
  }

  function DatePart(d: Date): (s: string)
    ensures |s| == 10
  {
    PadDigits(d.year, 4) + [':'] + PadDigits(d.month, 2) + [':'] + PadDigits(d.day, 2)
  }

  function ClockPart(t: DateTime): (s: string)
    ensures |s| == 8
  {
    PadDigits(t.hour, 2) + [':'] + PadDigits(t.minute, 2) + [':'] + PadDigits(t.second, 2)
  }

  /** The `%Y年%m月%d日` rendering of a date: digits with the three CJK markers after them. */
  function FormatDate(d: Date): (s: string)
    ensures |s| == 11
    ensures s[4] == '\U{5E74}' && s[7] == '\U{6708}' && s[10] == '\U{65E5}'
    ensures AllDigits(s[0..4]) && AllDigits(s[5..7]) && AllDigits(s[8..10])
    ensures d.year < 10000 && d.month < 100 && d.day < 100 ==>
              ValueOf(s[0..4]) == d.year && ValueOf(s[5..7]) == d.month && ValueOf(s[8..10]) == d.day
  {
    var year, month, day := PadDigits(d.year, 4), PadDigits(d.month, 2), PadDigits(d.day, 2);
    var s := year + ['\U{5E74}'] + month + ['\U{6708}'] + day + ['\U{65E5}'];
    assert s[0..4] == year && s[5..7] == month && s[8..10] == day;
    DateFields(d);
    s
  }

  /** Each field of the displayed date reads back as its own number, when it fits its width. */
  lemma DateFields(d: Date)
    ensures d.year < 10000 ==> ValueOf(PadDigits(d.year, 4)) == d.year
    ensures d.month < 100 ==> ValueOf(PadDigits(d.month, 2)) == d.month
    ensures d.day < 100 ==> ValueOf(PadDigits(d.day, 2)) == d.day
  {
    assert Pow10(2) == 100 && Pow10(4) == 10000;
    if d.year < 10000 { ValueOfPadDigits(d.year, 4); }
    if d.month < 100 { ValueOfPadDigits(d.month, 2); }
    if d.day < 100 { ValueOfPadDigits(d.day, 2); }
  }

  predicate TimestampShape(s: string) {
    && |s| == 19
    && s[4] == ':' && s[7] == ':' && s[10] == ' ' && s[13] == ':' && s[16] == ':'
    && AllDigits(s[0..4]) && AllDigits(s[5..7]) && AllDigits(s[8..10])
    && AllDigits(s[11..13]) && AllDigits(s[14..16]) && AllDigits(s[17..19])
  }

  /**
   Parses a fixed-width `YYYY:MM:DD HH:MM:SS` timestamp; `None` when the shape
   is wrong or the fields do not name a real calendar moment.
   */
  function ParseTimestamp(s: string): (r: Option<DateTime>)
    ensures r.Some? ==> ValidDateTime(r.value)
  {
    if TimestampShape(s) then
      var t := DateTime(Date(ValueOf(s[0..4]), ValueOf(s[5..7]), ValueOf(s[8..10])),
                        ValueOf(s[11..13]), ValueOf(s[14..16]), ValueOf(s[17..19]));
      if ValidDateTime(t) then Some(t) else None
    else None
  }

  /** One tag, decoded and reformatted; `None` on any failure. */
  function ReadTag(tag: TagValue): (r: Option<string>)
    ensures r.Some? <==> tag.Text? && ParseTimestamp(tag.s).Some?
    ensures r.Some? ==> |r.value| == 11
    ensures forall t :: ValidDateTime(t) && tag == Text(FormatTimestamp(t)) ==> r == Some(FormatDate(t.date))
  {
    forall t | ValidDateTime(t) && tag == Text(FormatTimestamp(t)) {
      ParseFormatTimestamp(t);
    }
    match tag
    case Undecodable => None
    case Text(s) =>
      match ParseTimestamp(s)
      case None => None
      case Some(t) => Some(FormatDate(t.date))
  }

  /** The tag the extractor consults: DateTimeOriginal when present, else DateTime. */
  function ChosenTag(c: ExifContainer): (r: Option<TagValue>)
    ensures c.Unreadable? ==> r.None?
    ensures c.Container? && c.original.Some? ==> r == c.original
    ensures c.Container? && c.original.None? ==> r == c.modified
  {
    match c
    case Unreadable => None
    case Container(original, modified) => if original.Some? then original else modified
  }

  /**
   The capture date of an image, reformatted for display. DateTimeOriginal
   wins whenever present, even when it fails to parse; DateTime is read only
   when DateTimeOriginal is absent; every failure yields `None`.
   */
  function GetExifDate(c: ExifContainer): (r: Option<string>)
    ensures c.Unreadable? ==> r.None?
    ensures c.Container? && c.original.None? && c.modified.None? ==> r.None?
    ensures c.Container? && c.original == Some(Undecodable) ==> r.None?
    ensures c.Container? && c.original.None? && c.modified == Some(Undecodable) ==> r.None?
    ensures r.Some? ==> |r.value| == 11
  {
    match c
    case Unreadable => None
    case Container(original, modified) =>
      if original.Some? then ReadTag(original.value)
      else if modified.Some? then ReadTag(modified.value)
      else None
  }

  // Properties of the parser and the formatters.

  /** Every field of a timestamp's rendering fits its width. */
  predicate FitsFields(t: DateTime) {
    t.date.year < 10000 && t.date.month < 100 && t.date.day < 100
    && t.hour < 100 && t.minute < 100 && t.second < 100
  }

  lemma TimestampFields(t: DateTime)
    ensures var s := FormatTimestamp(t);
            && s[0..4] == PadDigits(t.date.year, 4) && s[5..7] == PadDigits(t.date.month, 2)
            && s[8..10] == PadDigits(t.date.day, 2) && s[11..13] == PadDigits(t.hour, 2)
            && s[14..16] == PadDigits(t.minute, 2) && s[17..19] == PadDigits(t.second, 2)
            && s[4] == ':' && s[7] == ':' && s[10] == ' ' && s[13] == ':' && s[16] == ':'
  {
  }

  /**
   Parsing the rendering of any timestamp whose fields fit their widths
   recovers it exactly when it is a real calendar moment, and fails otherwise.
   */
  lemma ParseFormatDecides(t: DateTime)
    requires FitsFields(t)
    ensures ParseTimestamp(FormatTimestamp(t)) == if ValidDateTime(t) then Some(t) else None
  {
    TimestampFields(t);
    ValueOfPadDigits(t.date.year, 4);
    ValueOfPadDigits(t.date.month, 2);
    ValueOfPadDigits(t.date.day, 2);
    ValueOfPadDigits(t.hour, 2);
    ValueOfPadDigits(t.minute, 2);
    ValueOfPadDigits(t.second, 2);
  }

  /** Formatting a valid timestamp and parsing it back gives the timestamp. */
  lemma ParseFormatTimestamp(t: DateTime)
    requires ValidDateTime(t)
    ensures ParseTimestamp(FormatTimestamp(t)) == Some(t)
  {
    ParseFormatDecides(t);
  }

  /** A string the parser accepts is exactly the canonical rendering of what it returns. */
  lemma FormatParseTimestamp(s: string)
    requires ParseTimestamp(s).Some?
    ensures FormatTimestamp(ParseTimestamp(s).value) == s
  {
    var t := ParseTimestamp(s).value;
    PadDigitsOfValue(s[0..4]);
    PadDigitsOfValue(s[5..7]);
    PadDigitsOfValue(s[8..10]);
    PadDigitsOfValue(s[11..13]);
    PadDigitsOfValue(s[14..16]);
    PadDigitsOfValue(s[17..19]);
    TimestampFields(t);
    var f := FormatTimestamp(t);
    assert forall i :: 0 <= i < 19 ==> f[i] == s[i] by {
      forall i | 0 <= i < 19 ensures f[i] == s[i] {
        if i < 4 { assert f[i] == f[0..4][i]; assert s[i] == s[0..4][i]; }
        else if 5 <= i < 7 { assert f[i] == f[5..7][i - 5]; assert s[i] == s[5..7][i - 5]; }
        else if 8 <= i < 10 { assert f[i] == f[8..10][i - 8]; assert s[i] == s[8..10][i - 8]; }
        else if 11 <= i < 13 { assert f[i] == f[11..13][i - 11]; assert s[i] == s[11..13][i - 11]; }
        else if 14 <= i < 16 { assert f[i] == f[14..16][i - 14]; assert s[i] == s[14..16][i - 14]; }
        else if 17 <= i < 19 { assert f[i] == f[17..19][i - 17]; assert s[i] == s[17..19][i - 17]; }
      }
    }
  }

  /** The parser accepts exactly the canonical renderings of valid timestamps. */
  lemma ParseTimestampIff(s: string, t: DateTime)
    ensures ParseTimestamp(s) == Some(t) <==> ValidDateTime(t) && s == FormatTimestamp(t)
  {
    if ParseTimestamp(s) == Some(t) {
      FormatParseTimestamp(s);
    }
    if ValidDateTime(t) && s == FormatTimestamp(t) {
      ParseFormatTimestamp(t);
    }
  }

  /** Distinct valid dates are displayed differently. */
  lemma FormatDateInjective(a: Date, b: Date)
    requires ValidDate(a) && ValidDate(b)
    requires FormatDate(a) == FormatDate(b)
    ensures a == b
  {
    var fa, fb := FormatDate(a), FormatDate(b);
    assert fa[0..4] == PadDigits(a.year, 4);
    assert fb[0..4] == PadDigits(b.year, 4);
    assert fa[5..7] == PadDigits(a.month, 2);
    assert fb[5..7] == PadDigits(b.month, 2);
    assert fa[8..10] == PadDigits(a.day, 2);
    assert fb[8..10] == PadDigits(b.day, 2);
    PadDigitsInjective(a.year, b.year, 4);
    PadDigitsInjective(a.month, b.month, 2);
    PadDigitsInjective(a.day, b.day, 2);
  }

  /**
   Whenever the consulted tag holds the canonical rendering of a valid
   timestamp, the extracted text is that timestamp's date, time dropped.
   */
  lemma ExifDateComplete(c: ExifContainer, t: DateTime)
    requires ValidDateTime(t)
    requires ChosenTag(c) == Some(Text(FormatTimestamp(t)))
    ensures GetExifDate(c) == Some(FormatDate(t.date))
  {
    ParseFormatTimestamp(t);
  }

  /**
   Whenever a date is extracted, the consulted tag held the canonical
   rendering of a valid timestamp and the text is that timestamp's date.
   */
  lemma ExifDateSound(c: ExifContainer)
    requires GetExifDate(c).Some?
    ensures exists t :: ValidDateTime(t) && ChosenTag(c) == Some(Text(FormatTimestamp(t)))
                        && GetExifDate(c) == Some(FormatDate(t.date))
  {
    var s := ChosenTag(c).value.s;
    var t := ParseTimestamp(s).value;
    FormatParseTimestamp(s);
    assert ChosenTag(c) == Some(Text(FormatTimestamp(t)));
  }

  /** While DateTimeOriginal is present, DateTime has no influence on the result. */
  lemma OriginalWins(t: TagValue, m1: Option<TagValue>, m2: Option<TagValue>)
    ensures GetExifDate(Container(Some(t), m1)) == GetExifDate(Container(Some(t), m2))
    ensures GetExifDate(Container(Some(t), m1)) == ReadTag(t)
  {
  }

  /** With DateTimeOriginal absent, DateTime is read by exactly the same rule. */
  lemma ModifiedIsFallback(t: TagValue)
    ensures GetExifDate(Container(None, Some(t))) == GetExifDate(Container(Some(t), None))
  {
  }

  lemma PaddedYears()
    ensures PadDigits(2023, 4) == "2023" && PadDigits(2024, 4) == "2024"
  {
    assert PadDigits(2, 1) == "2";
    assert PadDigits(20, 2) == "20";
    assert PadDigits(202, 3) == "202";
    assert PadDigits(2023, 4) == "2023";
  }

  lemma PaddedFields()
    ensures PadDigits(0, 2) == "00" && PadDigits(2, 2) == "02" && PadDigits(5, 2) == "05"
    ensures PadDigits(10, 2) == "10" && PadDigits(17, 2) == "17"
    ensures PadDigits(22, 2) == "22" && PadDigits(29, 2) == "29"
  {
  }

  lemma RenderedExample2023()
    ensures FormatTimestamp(DateTime(Date(2023, 5, 17), 10, 22, 0)) == "2023:05:17 10:22:00"
  {
    PaddedYears();
    PaddedFields();
    var t := DateTime(Date(2023, 5, 17), 10, 22, 0);
    assert DatePart(t.date) == "2023:05:17";
    assert ClockPart(t) == "10:22:00";
  }

  lemma DisplayedExample2023()
    ensures FormatDate(Date(2023, 5, 17)) == "2023\U{5E74}05\U{6708}17\U{65E5}"
  {
    PaddedYears();
    PaddedFields();
  }

  lemma RenderedExample2024()
    ensures FormatTimestamp(DateTime(Date(2024, 2, 29), 0, 0, 0)) == "2024:02:29 00:00:00"
  {
    PaddedYears();
    PaddedFields();
    var t := DateTime(Date(2024, 2, 29), 0, 0, 0);
    assert DatePart(t.date) == "2024:02:29";
    assert ClockPart(t) == "00:00:00";
  }

  lemma RenderedExampleNonLeap()
    ensures FormatTimestamp(DateTime(Date(2023, 2, 29), 0, 0, 0)) == "2023:02:29 00:00:00"
  {
    PaddedYears();
    PaddedFields();
    var t := DateTime(Date(2023, 2, 29), 0, 0, 0);
    assert DatePart(t.date) == "2023:02:29";
    assert ClockPart(t) == "00:00:00";
  }

  /** The worked example: the time part is dropped and the date is relabelled. */
  lemma ReformatExample()
    ensures GetExifDate(Container(Some(Text("2023:05:17 10:22:00")), None))
            == Some("2023\U{5E74}05\U{6708}17\U{65E5}")
  {
    RenderedExample2023();
    DisplayedExample2023();
    ExifDateComplete(Container(Some(Text("2023:05:17 10:22:00")), None), DateTime(Date(2023, 5, 17), 10, 22, 0));
  }

  /** February 29th exists in 2024. */
  lemma LeapDayExample()
    ensures ParseTimestamp("2024:02:29 00:00:00") == Some(DateTime(Date(2024, 2, 29), 0, 0, 0))
  {
    var t := DateTime(Date(2024, 2, 29), 0, 0, 0);
    assert ValidDateTime(t) by {
      assert IsLeapYear(2024);
    }
    ParseFormatTimestamp(t);
    RenderedExample2024();
  }

  lemma RenderedExampleApril31()
    ensures FormatTimestamp(DateTime(Date(2023, 4, 31), 0, 0, 0)) == "2023:04:31 00:00:00"
  {
    PaddedYears();
    PaddedFields();
    var t := DateTime(Date(2023, 4, 31), 0, 0, 0);
    assert DatePart(t.date) == "2023:04:31";
    assert ClockPart(t) == "00:00:00";
  }

  /** April has thirty days: `2023:04:31 00:00:00` is rejected. */
  lemma April31Example()
    ensures ParseTimestamp("2023:04:31 00:00:00") == None
  {
    RenderedExampleApril31();
    ParseFormatDecides(DateTime(Date(2023, 4, 31), 0, 0, 0));
  }

  /** February 29th does not exist in 2023, so that timestamp is rejected. */
  lemma NonLeapDayExample()
    ensures ParseTimestamp("2023:02:29 00:00:00") == None
  {
    RenderedExampleNonLeap();
    ParseFormatDecides(DateTime(Date(2023, 2, 29), 0, 0, 0));
  }
}

=== FILE: layout.dfy ===
/**
 Anchor geometry: where the top-left corner of the watermark text box goes,
 given the image size, the measured text size and a named position.
 Origin is the image's top-left corner, x grows right, y grows down.
 */
module Layout {

  /** Margin between the text box and the edges it is anchored to. */
  const Padding: int := 20

  datatype Point = Point(x: int, y: int)

  datatype Anchor = TopLeft | TopCenter | TopRight | Center | BottomLeft | BottomCenter | BottomRight

  /** The command-line spelling of each anchor. */
  function AnchorName(a: Anchor): string {
    match a
    case TopLeft => "top-left"
    case TopCenter => "top-center"
    case TopRight => "top-right"
    case Center => "center"
    case BottomLeft => "bottom-left"
    case BottomCenter => "bottom-center"
    case BottomRight => "bottom-right"
  }

  /** The anchor a position string selects; any unrecognised string selects bottom-right. */
  function AnchorOf(name: string): (a: Anchor)
    ensures AnchorName(a) == name || (a == BottomRight && forall b :: AnchorName(b) != name)
  {
    if name == "top-left" then TopLeft
    else if name == "top-right" then TopRight
    else if name == "bottom-left" then BottomLeft
    else if name == "bottom-right" then BottomRight
    else if name == "center" then Center
    else if name == "top-center" then TopCenter
    else if name == "bottom-center" then BottomCenter
    else BottomRight
  }

  lemma AnchorNameRoundTrip(a: Anchor)
    ensures AnchorOf(AnchorName(a)) == a
  {
  }

  /**
   The watermark origin for a position string, branch for branch as the tool
   computes it: a fixed padding on anchored edges, floor division for centred
   axes, and no clamping of negative results.
   */
  function WatermarkPosition(imgW: int, imgH: int, textW: int, textH: int, position: string): (p: Point)
    ensures var a := AnchorOf(position);
            p == Point(AxisOrigin(imgW, textW, HAlign(a)), AxisOrigin(imgH, textH, VAlign(a)))
  {
    if position == "top-left" then Point(Padding, Padding)
    else if position == "top-right" then Point(imgW - textW - Padding, Padding)
    else if position == "bottom-left" then Point(Padding, imgH - textH - Padding)
    else if position == "bottom-right" then Point(imgW - textW - Padding, imgH - textH - Padding)
    else if position == "center" then Point((imgW - textW) / 2, (imgH - textH) / 2)
    else if position == "top-center" then Point((imgW - textW) / 2, Padding)
    else if position == "bottom-center" then Point((imgW - textW) / 2, imgH - textH - Padding)
    else Point(imgW - textW - Padding, imgH - textH - Padding)
  }

  // An independent description of the same geometry, one axis at a time:
  // each axis of the position is decided by the anchor's alignment on that axis alone.

  datatype Align = Start | Middle | End

  function HAlign(a: Anchor): Align {
    match a
    case TopLeft | BottomLeft => Start
    case TopCenter | Center | BottomCenter => Middle
    case TopRight | BottomRight => End
  }

  function VAlign(a: Anchor): Align {
    match a
    case TopLeft | TopCenter | TopRight => Start
    case Center => Middle
    case BottomLeft | BottomCenter | BottomRight => End
  }

  /** Where a box of length `textLen` starts on an axis of length `imgLen`. */
  function AxisOrigin(imgLen: int, textLen: int, align: Align): (o: int)
    ensures align == Start ==> o == Padding
    ensures align == End ==> o + textLen + Padding == imgLen
    ensures align == Middle ==> 0 <= (imgLen - textLen) - 2 * o <= 1
  {
    match align
    case Start => Padding
    case Middle => (imgLen - textLen) / 2
    case End => imgLen - textLen - Padding
  }

  /** A position string that names no anchor is placed exactly like "bottom-right". */
  lemma UnknownPositionIsBottomRight(imgW: int, imgH: int, textW: int, textH: int, position: string)
    requires forall a :: AnchorName(a) != position
    ensures WatermarkPosition(imgW, imgH, textW, textH, position)
            == WatermarkPosition(imgW, imgH, textW, textH, "bottom-right")
    ensures WatermarkPosition(imgW, imgH, textW, textH, position)
            == Point(imgW - textW - Padding, imgH - textH - Padding)
  {
    assert AnchorName(TopLeft) != position;
    assert AnchorName(TopRight) != position;
    assert AnchorName(BottomLeft) != position;
    assert AnchorName(BottomRight) != position;
    assert AnchorName(Center) != position;
    assert AnchorName(TopCenter) != position;
    assert AnchorName(BottomCenter) != position;
  }

  /** When the text fits with room for both margins, the box is at least one padding inside an axis. */
  lemma AxisWithinMargins(imgLen: int, textLen: int, align: Align)
    requires 0 <= textLen <= imgLen - 2 * Padding
    ensures Padding <= AxisOrigin(imgLen, textLen, align)
    ensures AxisOrigin(imgLen, textLen, align) + textLen <= imgLen - Padding
  {
  }

  /**
   When the text fits with room for both margins, every position string puts
   the whole text box at least one padding inside every edge of the image.
   */
  lemma WithinMargins(imgW: int, imgH: int, textW: int, textH: int, position: string)
    requires 0 <= textW <= imgW - 2 * Padding
    requires 0 <= textH <= imgH - 2 * Padding
    ensures var p := WatermarkPosition(imgW, imgH, textW, textH, position);
            && Padding <= p.x && p.x + textW <= imgW - Padding
            && Padding <= p.y && p.y + textH <= imgH - Padding
  {
    var a := AnchorOf(position);
    AxisWithinMargins(imgW, textW, HAlign(a));
    AxisWithinMargins(imgH, textH, VAlign(a));
  }

  /**
   Nothing is clamped: a right-anchored box starts left of the image exactly
   when the text is wider than the image minus one padding.
   */
  lemma RightAnchorGoesNegative(imgW: int, imgH: int, textW: int, textH: int, position: string)
    requires HAlign(AnchorOf(position)) == End
    ensures WatermarkPosition(imgW, imgH, textW, textH, position).x < 0 <==> textW > imgW - Padding
  {
  }
}

=== FILE: posix_path.dfy ===
/**
 The POSIX path helpers the batch driver relies on: `basename`, `dirname` and
 two-argument `join`, with `/` as the only separator and no normalisation.
 */
module PosixPath {

  const Sep: char := '/'

  /** Index of the last separator in `p`, or -1 when there is none. */
  function LastSep(p: string): (r: int)
    ensures -1 <= r < |p|
    ensures r >= 0 ==> p[r] == Sep
    ensures forall i :: r < i < |p| ==> p[i] != Sep
  {
    if p == [] then -1
    else if p[|p| - 1] == Sep then |p| - 1
    else LastSep(p[..|p| - 1])
  }

  predicate EndsWithSep(p: string) {
    p != [] && p[|p| - 1] == Sep
  }

  predicate AllSeps(p: string) {
    forall i :: 0 <= i < |p| ==> p[i] == Sep
  }

  /** `p` with every trailing separator removed. */
  function RStripSeps(p: string): (r: string)
    ensures |r| <= |p| && r == p[..|r|]
    ensures !EndsWithSep(r)
    ensures AllSeps(p[|r|..])
  {
    if EndsWithSep(p) then RStripSeps(p[..|p| - 1]) else p
  }

  /** The final component: everything after the last separator. */
  function Basename(p: string): (r: string)
    ensures Sep !in r
    ensures |r| <= |p| && p[|p| - |r|..] == r
    ensures |r| == |p| || p[|p| - |r| - 1] == Sep
  {
    p[LastSep(p) + 1..]
  }

  /**
   Everything up to the last separator, with trailing separators removed
   unless the head consists of separators only (so `dirname("/x") == "/"`).
   */
  function Dirname(p: string): (r: string)
    ensures |r| <= |p| && r == p[..|r|]
    ensures r == [] <==> Sep !in p
    ensures !AllSeps(r) ==> !EndsWithSep(r)
    ensures Sep in p ==> |r| <= LastSep(p) + 1 && AllSeps(p[|r|..LastSep(p) + 1])
    ensures AllSeps(r) ==> r == p[..LastSep(p) + 1]
  {
    var head := p[..LastSep(p) + 1];
    if head != [] && !AllSeps(head) then
      var r := RStripSeps(head);
      assert p[|r|..LastSep(p) + 1] == head[|r|..];
      StripKeepsNonSep(head);
      r
    else head
  }

  /** Stripping trailing separators keeps every other character, so a head that is not all separators stays so. */
  lemma StripKeepsNonSep(p: string)
    requires !AllSeps(p)
    ensures !AllSeps(RStripSeps(p))
  {
    var r := RStripSeps(p);
    var i :| 0 <= i < |p| && p[i] != Sep;
    assert r[i] == p[i];
  }

  /** Two-argument join: an absolute second part replaces the first. */
  function Join(a: string, b: string): (r: string)
    ensures b != [] && b[0] == Sep ==> r == b
    ensures !(b != [] && b[0] == Sep) ==> |a| + |b| <= |r| <= |a| + |b| + 1
    ensures !(b != [] && b[0] == Sep) ==> (|r| == |a| + |b| + 1 <==> a != [] && !EndsWithSep(a))
    ensures |r| == |a| + |b| + 1 ==> r[|a|] == Sep
  {
    if b != [] && b[0] == Sep then b
    else if a == [] || EndsWithSep(a) then a + b
    else a + [Sep] + b
  }

  /** A relative second part is appended to the first: the result starts with the one and ends with the other. */
  lemma JoinParts(a: string, b: string)
    requires !(b != [] && b[0] == Sep)
    ensures var r := Join(a, b);
            r[..|a|] == a && r[|r| - |b|..] == b
  {
    var r := Join(a, b);
    if a == [] || EndsWithSep(a) {
      assert r == a + b;
    } else {
      assert r == a + [Sep] + b;
    }
  }

  /** Joining a separator-free name and taking the final component gives the name back. */
  lemma BasenameOfJoin(a: string, name: string)
    requires Sep !in name
    ensures Basename(Join(a, name)) == name
  {
    var r := Join(a, name);
    var j := if a == [] then -1 else |r| - |name| - 1;
    if a == [] {
      assert r == name;
    } else if EndsWithSep(a) {
      assert r == a + name;
    } else {
      assert r == a + [Sep] + name;
    }
    assert forall i :: j < i < |r| ==> r[i] == name[i - j - 1];
    LastSepIs(r, j);
    assert r[j + 1..] == name;
  }

  /** The last separator is the one after which no separator follows. */
  lemma LastSepIs(p: string, j: int)
    requires -1 <= j < |p|
    requires j >= 0 ==> p[j] == Sep
    requires forall i :: j < i < |p| ==> p[i] != Sep
    ensures LastSep(p) == j
  {
  }

  /**
   Joining a separator-free name onto a directory that does not end in a
   separator, then taking the directory part, gives the directory back.
   */
  lemma DirnameOfJoin(dir: string, name: string)
    requires dir != [] && !EndsWithSep(dir)
    requires Sep !in name
    ensures Dirname(Join(dir, name)) == dir
  {
    var r := Join(dir, name);
    assert r == dir + [Sep] + name;
    var k := LastSep(r);
    assert r[|dir|] == Sep;
    assert k == |dir|;
    var head := r[..k + 1];
    assert head == dir + [Sep];
    assert head[|dir| - 1] != Sep;
    assert head[..|dir|] == dir;
    assert RStripSeps(head) == RStripSeps(dir);
  }

  /** Appending separator-free text changes no directory part. */
  lemma DirnameAppend(p: string, tail: string)
    requires Sep !in tail
    ensures Dirname(p + tail) == Dirname(p)
  {
    var q := p + tail;
    var k := LastSep(p);
    assert LastSep(q) == k by {
      forall i | k < i < |q| ensures q[i] != Sep {
        if i >= |p| {
          assert q[i] == tail[i - |p|];
        }
      }
      LastSepIs(q, k);
    }
    SameHead(p, q);
  }

  /** Paths with the same head up to their last separator have the same directory part. */
  lemma SameHead(p: string, q: string)
    requires LastSep(p) == LastSep(q) && p[..LastSep(p) + 1] == q[..LastSep(q) + 1]
    ensures Dirname(p) == Dirname(q)
  {
  }
}

=== FILE: render.dfy ===
/**
 The per-image step: choose the watermark text, resolve a font, place the text
 and plan the two drawing commands (shadow, then main text). Image decoding,
 text measurement, colour lookup and saving are host services, passed in as
 functions.
 */
module Render {
  import opened Wrappers
  import opened Layout
  import opened ExifDate
  import opened PosixPath

  /** The settings shared by every image of a run. */
  datatype WatermarkSpec = WatermarkSpec(fontSize: int, color: string, position: string)

  datatype Size = Size(width: int, height: int)

  /** A font loaded from one of the candidate files, or the library's built-in bitmap font. */
  datatype Font = TrueType(path: string, size: int) | BuiltinDefault

  /** One text-drawing call: where, what, in which colour and in which font. */
  datatype DrawCmd = DrawCmd(at: Point, text: string, fill: string, font: Font)

  /**
   What the host provides: today's date and the outcome of each library call.
   `renders` says whether a font can measure and draw a text (the built-in
   bitmap font, for one, cannot encode the date markers); `makesDir` whether a
   directory exists or can be created.
   */
  datatype Host = Host(
    today: Date,
    fontLoads: string -> bool,
    measure: (Font, string) -> Size,
    renders: (Font, string) -> bool,
    knownColor: string -> bool,
    makesDir: string -> bool,
    saves: string -> bool)

  /** One image as the host sees it: its decoded size if it decodes, and its metadata. */
  datatype ImageFile = ImageFile(decoded: Option<Size>, exif: ExifContainer)

  datatype FileOutcome =
    | Written(source: string, output: string, text: string, commands: seq<DrawCmd>)
    | Failed(source: string)

  const ShadowOffset: int := 2
  const Black: string := "black"

  /** Font files tried in order before falling back to the built-in font. */
  const FontCandidates: seq<string> :=
    ["arial.ttf", "/System/Library/Fonts/Arial.ttf", "/usr/share/fonts/truetype/freefont/FreeMono.ttf"]

  /** Index of the first candidate that loads. */
  function FirstLoadable(candidates: seq<string>, loads: string -> bool): (r: Option<nat>)
    ensures r.Some? ==> r.value < |candidates| && loads(candidates[r.value])
    ensures r.Some? ==> forall j :: 0 <= j < r.value ==> !loads(candidates[j])
    ensures r.None? ==> forall j :: 0 <= j < |candidates| ==> !loads(candidates[j])
  {
    if candidates == [] then None
    else if loads(candidates[0]) then Some(0)
    else
      match FirstLoadable(candidates[1..], loads)
      case None => None
      case Some(i) => Some(i + 1)
  }

  /** The font used: the first candidate file that loads at the requested size, else the built-in font. */
  function ResolveFont(size: int, loads: string -> bool): (f: Font)
    ensures f.TrueType? ==> f.size == size && f.path in FontCandidates && loads(f.path)
    ensures f.TrueType? ==> forall j :: 0 <= j < |FontCandidates| && FontCandidates[j] == f.path ==>
              forall k :: 0 <= k < j ==> !loads(FontCandidates[k])
    ensures f.BuiltinDefault? <==> forall p :: p in FontCandidates ==> !loads(p)
  {
    match FirstLoadable(FontCandidates, loads)
    case Some(i) => TrueType(FontCandidates[i], size)
    case None => BuiltinDefault
  }

  /** The text drawn: the extracted date when there is a non-empty one, else today's date in the same format. */
  function WatermarkText(extracted: Option<string>, today: Date): (text: string)
    ensures extracted.Some? && extracted.value != [] ==> text == extracted.value
    ensures extracted.None? || extracted.value == [] ==> text == FormatDate(today)
  {
    if extracted.None? || extracted.value == [] then FormatDate(today) else extracted.value
  }

  /** The shadow colour, chosen by a test whose two branches agree. */
  function ShadowColor(color: string): (c: string)
    ensures c == Black
  {
    if color == "white" then Black else Black
  }

  /** Shadow first, offset down and right, then the main text on top at the origin, both in the same font. */
  function DrawPlan(origin: Point, text: string, color: string, font: Font): (plan: seq<DrawCmd>)
    ensures |plan| == 2 && plan[0].text == plan[1].text == text
    ensures plan[0].font == plan[1].font == font
    ensures plan[0].at == Point(origin.x + ShadowOffset, origin.y + ShadowOffset) && plan[0].fill == Black
    ensures plan[1].at == origin && plan[1].fill == color
  {
    [DrawCmd(Point(origin.x + ShadowOffset, origin.y + ShadowOffset), text, ShadowColor(color), font),
     DrawCmd(origin, text, color, font)]
  }

  /**
   Watermarks one image. The image fails as a whole (and nothing is written)
   when it does not decode, when the resolved font cannot render the text,
   when the requested colour is unknown, when the output's directory cannot
   be made, or when the output cannot be saved; otherwise it is written with
   the planned commands.
   */
  function AddWatermark(source: string, output: string, file: ImageFile, host: Host, spec: WatermarkSpec)
    : (r: FileOutcome)
    ensures r.source == source
    ensures r.Written? <==>
              && file.decoded.Some?
              && host.renders(ResolveFont(spec.fontSize, host.fontLoads), WatermarkText(GetExifDate(file.exif), host.today))
              && host.knownColor(spec.color)
              && host.makesDir(Dirname(output))
              && host.saves(output)
    ensures r.Written? ==> r.output == output && r.text == WatermarkText(GetExifDate(file.exif), host.today)
  {
    match file.decoded
    case None => Failed(source)
    case Some(img) =>
      var text := WatermarkText(GetExifDate(file.exif), host.today);
      var font := ResolveFont(spec.fontSize, host.fontLoads);
      if !host.renders(font, text) then Failed(source)
      else
        var box := host.measure(font, text);
        var origin := WatermarkPosition(img.width, img.height, box.width, box.height, spec.position);
        if !host.knownColor(spec.color) || !host.makesDir(Dirname(output)) || !host.saves(output) then Failed(source)
        else Written(source, output, text, DrawPlan(origin, text, spec.color, font))
  }

  /**
   The plan of a written image: a black shadow two pixels down and right of
   the main text, drawn first, whatever colour was requested; then the main
   text in the requested colour at the anchor position of the measured text.
   Both are drawn in the font the text was measured in.
   */
  lemma WrittenPlan(source: string, output: string, file: ImageFile, host: Host, spec: WatermarkSpec)
    requires AddWatermark(source, output, file, host, spec).Written?
    ensures var r := AddWatermark(source, output, file, host, spec);
            var img := file.decoded.value;
            var font := ResolveFont(spec.fontSize, host.fontLoads);
            var box := host.measure(font, r.text);
            var main := WatermarkPosition(img.width, img.height, box.width, box.height, spec.position);
            && |r.commands| == 2
            && r.commands[0] == DrawCmd(Point(main.x + 2, main.y + 2), r.text, "black", font)
            && r.commands[1] == DrawCmd(main, r.text, spec.color, font)
  {
  }

  /** The shadow is black even when the main text is black, so it cannot be seen. */
  lemma BlackOnBlack(origin: Point, text: string, font: Font)
    ensures var plan := DrawPlan(origin, text, "black", font);
            plan[0].fill == plan[1].fill == "black" && plan[0].at != plan[1].at
  {
  }

  /** With no capture date at all, the text is today's date. */
  lemma NoMetadataUsesToday(host: Host)
    ensures WatermarkText(GetExifDate(Container(None, None)), host.today) == FormatDate(host.today)
    ensures WatermarkText(GetExifDate(Unreadable), host.today) == FormatDate(host.today)
  {
  }
}

=== FILE: selection.dfy ===
/**
 What a directory run selects, and in which order: one task per selectable
 entry, pattern by pattern, each pattern's matches in listing order.
 */
module Selection {
  import opened PosixPath
  import opened Batch

  /**
   A directory run has one task per selectable entry of the listing, each
   entry exactly once, in discovery order, and no task for anything else.
   */
  lemma DirectoryRunSelects(path: string, listing: seq<string>)
    requires ValidListing(listing) && NoDups(listing)
    requires Plan(path, OtherEntry, listing).Run?
    ensures var tasks := Plan(path, OtherEntry, listing).tasks;
            var names := DiscoverNames(listing);
            && |tasks| == |names|
            && (forall i :: 0 <= i < |tasks| ==> Basename(tasks[i].source) == names[i])
            && SelectedFrom(names, listing)
            && NoDups(names)
  {
    var o := Plan(path, OtherEntry, listing);
    var names := DiscoverNames(listing);
    RunSources(path, listing);
    SourceNames(o, SearchDir(path), names, listing);
  }

  lemma RunSources(path: string, listing: seq<string>)
    ensures SourcesFrom(Plan(path, OtherEntry, listing), SearchDir(path), DiscoverNames(listing))
    ensures SelectedFrom(DiscoverNames(listing), listing)
    ensures NoDups(listing) ==> NoDups(DiscoverNames(listing))
  {
  }

  /** Sources joined from directory entries end in those entries. */
  lemma SourceNames(o: Outcome, dir: string, names: seq<string>, listing: seq<string>)
    requires o.Run? && SourcesFrom(o, dir, names) && ValidListing(listing)
    requires SelectedFrom(names, listing)
    ensures forall i :: 0 <= i < |o.tasks| ==> Basename(o.tasks[i].source) == names[i]
  {
    forall i | 0 <= i < |o.tasks| ensures Basename(o.tasks[i].source) == names[i] {
      assert names[i] in names;
      assert names[i] in listing;
      var k :| 0 <= k < |listing| && listing[k] == names[i];
      BasenameOfJoin(dir, names[i]);
    }
  }


  /** `a` occurs in `s` before `b` does. */
  predicate Before(s: seq<string>, a: string, b: string) {
    exists p, q :: 0 <= p < q < |s| && s[p] == a && s[q] == b
  }

  /** One glob keeps the listing order. */
  lemma {:induction false} GlobNamesOrder(listing: seq<string>, pattern: string, i: nat, j: nat)
    requires i < j < |GlobNames(listing, pattern)|
    ensures Before(listing, GlobNames(listing, pattern)[i], GlobNames(listing, pattern)[j])
  {
    var r := GlobNames(listing, pattern);
    var tail := listing[1..];
    var rest := GlobNames(tail, pattern);
    if Matches(listing[0], pattern) && i == 0 {
      assert r[j] == rest[j - 1] && rest[j - 1] in rest;
      GlobNamesMember(tail, pattern, rest[j - 1]);
      var q :| 0 <= q < |tail| && tail[q] == rest[j - 1];
      assert listing[0] == r[0] && listing[q + 1] == r[j];
    } else {
      var d := if Matches(listing[0], pattern) then 1 else 0;
      var i', j' := i - d, j - d;
      assert r[i] == rest[i'] && r[j] == rest[j'];
      GlobNamesOrder(tail, pattern, i', j');
      var p, q :| 0 <= p < q < |tail| && tail[p] == rest[i'] && tail[q] == rest[j'];
      assert listing[p + 1] == r[i] && listing[q + 1] == r[j];
    }
  }

  /**
   Across a list of patterns, a name found by an earlier pattern comes first;
   names found by the same pattern keep the listing order.
   */
  lemma {:induction false} DiscoverFromOrder(listing: seq<string>, patterns: seq<string>, i: nat, j: nat)
      returns (ki: nat, kj: nat)
    requires i < j < |DiscoverNamesFrom(listing, patterns)|
    ensures var names := DiscoverNamesFrom(listing, patterns);
            && ki <= kj < |patterns|
            && Matches(names[i], patterns[ki]) && Matches(names[j], patterns[kj])
            && (ki == kj ==> Before(listing, names[i], names[j]))
  {
    var names := DiscoverNamesFrom(listing, patterns);
    var g := GlobNames(listing, patterns[0]);
    if j < |g| {
      OrderWithinFirst(listing, patterns, i, j);
      ki, kj := 0, 0;
    } else if i < |g| {
      kj := OrderAcrossFirst(listing, patterns, i, j);
      ki := 0;
    } else {
      RestIndices(listing, patterns, i, j);
      var k1, k2 := DiscoverFromOrder(listing, patterns[1..], i - |g|, j - |g|);
      assert patterns[1..][k1] == patterns[k1 + 1] && patterns[1..][k2] == patterns[k2 + 1];
      ki, kj := k1 + 1, k2 + 1;
    }
  }

  /** Past the first pattern's matches, the names found are those of the remaining patterns. */
  lemma RestIndices(listing: seq<string>, patterns: seq<string>, i: nat, j: nat)
    requires patterns != []
    requires |GlobNames(listing, patterns[0])| <= i < j < |DiscoverNamesFrom(listing, patterns)|
    ensures var names := DiscoverNamesFrom(listing, patterns);
            var rest := DiscoverNamesFrom(listing, patterns[1..]);
            var n := |GlobNames(listing, patterns[0])|;
            && j - n < |rest| && names[i] == rest[i - n] && names[j] == rest[j - n]
  {
    var rest := DiscoverNamesFrom(listing, patterns[1..]);
    assert DiscoverNamesFrom(listing, patterns) == GlobNames(listing, patterns[0]) + rest;
  }

  /** Two names found by the first pattern keep the listing order. */
  lemma OrderWithinFirst(listing: seq<string>, patterns: seq<string>, i: nat, j: nat)
    requires patterns != [] && i < j < |GlobNames(listing, patterns[0])|
    ensures var names := DiscoverNamesFrom(listing, patterns);
            && j < |names|
            && Matches(names[i], patterns[0]) && Matches(names[j], patterns[0])
            && Before(listing, names[i], names[j])
  {
    var names := DiscoverNamesFrom(listing, patterns);
    var g := GlobNames(listing, patterns[0]);
    assert names == g + DiscoverNamesFrom(listing, patterns[1..]);
    assert names[i] == g[i] && names[j] == g[j];
    assert g[i] in g && g[j] in g;
    GlobNamesOrder(listing, patterns[0], i, j);
  }

  /** A name found by the first pattern precedes one found only by a later pattern. */
  lemma OrderAcrossFirst(listing: seq<string>, patterns: seq<string>, i: nat, j: nat) returns (kj: nat)
    requires patterns != []
    requires i < |GlobNames(listing, patterns[0])| <= j < |DiscoverNamesFrom(listing, patterns)|
    ensures var names := DiscoverNamesFrom(listing, patterns);
            && 0 < kj < |patterns|
            && Matches(names[i], patterns[0]) && Matches(names[j], patterns[kj])
  {
    var names := DiscoverNamesFrom(listing, patterns);
    var g := GlobNames(listing, patterns[0]);
    var rest := DiscoverNamesFrom(listing, patterns[1..]);
    assert names == g + rest;
    assert names[i] == g[i] && g[i] in g;
    assert names[j] == rest[j - |g|] && rest[j - |g|] in rest;
    DiscoverNamesMember(listing, patterns[1..], names[j]);
    var k :| 0 <= k < |patterns[1..]| && Matches(names[j], patterns[1..][k]);
    assert patterns[1..][k] == patterns[k + 1];
    kj := k + 1;
  }

  /**
   The discovery order: every name matches exactly one pattern; a name whose
   pattern comes earlier in the search list is listed first, and two names of
   the same pattern keep the order of the directory listing.
   */
  lemma DiscoveryOrder(listing: seq<string>, i: nat, j: nat, ki: nat, kj: nat)
    requires i < j < |DiscoverNames(listing)|
    requires ki < |Patterns()| && kj < |Patterns()|
    requires Matches(DiscoverNames(listing)[i], Patterns()[ki]) && Matches(DiscoverNames(listing)[j], Patterns()[kj])
    ensures ki <= kj
    ensures ki == kj ==> Before(listing, DiscoverNames(listing)[i], DiscoverNames(listing)[j])
  {
    var names := DiscoverNames(listing);
    var k1, k2 := DiscoverFromOrder(listing, Patterns(), i, j);
    if ki != k1 {
      PatternsExclusive(names[i], if ki < k1 then ki else k1, if ki < k1 then k1 else ki);
    }
    if kj != k2 {
      PatternsExclusive(names[j], if kj < k2 then kj else k2, if kj < k2 then k2 else kj);
    }
  }
}

=== FILE: wrappers.dfy ===
/** The Some/None datatype used wherever the tool returns `None` or reads an optional value. */
module Wrappers {

  datatype Option<+T> = None | Some(value: T)
}
